=== FILE: README.md ===
# UK Parliament petitions dashboard — a Dafny model of its core

The dashboard (`petitions_app.py`) downloads every petition from the UK
Parliament petitions service. It flattens each one into a table row,
derives day counts between the petition's milestones, filters the table from
the sidebar, shows key-metric averages and pages through the list fifty rows
at a time. This project models that core logic as pure Dafny functions and
proves what the code promises about it.

The modules follow the script's own stages:

- `Common` — the nullable `Option`, Python truthiness of an optional string,
  substring occurrence, and `str.replace(p, "")` as `RemoveAll`.
- `Petition` — the row of the petition table and its eight milestone
  timestamps. A timestamp is an integer count of microseconds since the epoch.
  The script's dates are pandas Timestamps, which resolve nanoseconds, but the
  petitions service sends its times with millisecond precision, so
  microseconds lose nothing and `Timedelta.days` is exact floor division by
  the microseconds in a day. Whole seconds would round away those
  milliseconds. `None` stands for a missing or unparseable date.
- `Metrics` — `days_between`, the six duration columns and the three
  "waiting" counters, measured against a `today` instant passed in.
- `Average` — `avg_days_between`, the key-metric mean.
- `Fetch` — the paging loop of `fetch_petitions` over a given sequence of
  HTTP responses, and the extraction of a row from one JSON entry.
- `Filter` — department back-filling, the state/department multiselects,
  the signature range with its min/max check, and the petition search
  (dropdown choices or case-insensitive free text).
- `Pagination` — page count, the rows of one page, and the First / Prev /
  page-number / Next / Last controls as transitions of the current page.
- `Tooltip` — `add_tooltip`, the government-response cell.
- `Numerals` — Python's `int(s, base)` for bases 10 and 16 (`ParseInt`, read
  at lines 509, 579 and 590), and digit strings. `ParseInt` carries no
  contract of its own; the lemmas in its rows below state what it does.
- `Color` — `hex_to_rgb` and `rgb_to_hex`.
- `Thousands` — the `"{:,}"` signature formatting (line 531) and the integer
  branch of `safe_float` (lines 577-579). In the script that branch is never
  reached: `safe_float` is applied only to the nine day-count columns, which
  are cast to `Int64` and never hold strings, while only the "Signatures"
  column is formatted with commas. That `safe_float` reads `"{:,}"` text
  back is therefore a property of the two helpers composed directly, not of
  a path the app takes.

Nothing is read from the network or the clock. The HTTP responses are a
parameter of `Fetch.FetchPetitions`: `responses[k]` is the reply to the
request for page `k + 1`. "Now" is the `today` parameter of the metrics.

## Model

| member | source | states |
|---|---|---|
| Common.RemoveAll | petitions_app.py:54 | `.replace(".json", "")` never lengthens the link and leaves a link without `.json` unchanged |
| Common.RemoveAllTrailing | petitions_app.py:54 | a link ending in its only `.json` loses exactly that suffix |
| Metrics.FloorDaysMeaning | petitions_app.py:102 | `.days` is the span in whole days rounded down, and is non-negative exactly when the span is |
| Metrics.DaysBetween | petitions_app.py:93-102 | a value exists iff both dates exist and start is not after end; it is then the non-negative whole-day span |
| Metrics.WaitingForGovResp | petitions_app.py:120-130 | a value exists iff the response threshold is reached, no response is recorded and the threshold is not after today; it is then the whole days since the threshold |
| Metrics.WaitingForDebSched | petitions_app.py:132-142 | the same for the debate threshold without a scheduled debate |
| Metrics.WaitingForDebOutcome | petitions_app.py:144-155 | a value exists iff the debate is scheduled strictly before today and has no outcome; it is then the whole days since the scheduled date |
| Metrics.DebOutcomeGuardRedundant | petitions_app.py:148-153 | the `.days >= 0` guard of the debate-outcome counter is implied by its strict date comparison |
| Metrics.DebOutcomeVersusPattern | petitions_app.py:120-155 | the debate-outcome counter agrees with the other two counters' pattern except for a debate scheduled exactly at today, which gives nothing instead of 0 |
| Metrics.Derive | petitions_app.py:104-155 | each of the six duration columns is `days_between` of the two milestones its header names; the three waiting columns are the counters |
| Metrics.DurationMeaning | petitions_app.py:104-116 | a duration column holds a value iff both milestones of its interval are recorded in order, and the value is their whole-day span |
| Metrics.OpenedToThresholdExamples | petitions_app.py:105-106 | opened on 1 January and threshold on 5 January gives 4; a threshold on 30 December gives nothing, not -2 |
| Metrics.SevenDaysWaiting | petitions_app.py:120-130 | a threshold exactly seven days ago with no response waits 7 days; any recorded response clears the counter |
| Average.TruncDivMeaning | petitions_app.py:416 | `int()` of the mean rounds towards zero, for negative sums too |
| Average.DiffsEmpty | petitions_app.py:415-416 | no difference survives `dropna()` exactly when no row has both timestamps |
| Average.AvgDaysBetween | petitions_app.py:406-416 | `None` iff no row has both timestamps; otherwise the mean of the surviving differences rounded towards zero |
| Average.DiffsPermutation | petitions_app.py:415 | reordering the rows permutes the surviving differences, keeping their count and sum |
| Average.AvgOrderIndependent | petitions_app.py:406-416 | the average does not depend on row order |
| Average.RowDiffVersusDaysBetween | petitions_app.py:415 | the average uses the same day count as `days_between` but keeps negative spans that the per-row column drops |
| Fetch.DebateLink | petitions_app.py:69-80 | a debate link is present iff the debate object has a non-empty URL of that kind, and it is that URL |
| Fetch.ExtractRow | petitions_app.py:44-82 | the petition links to the self link without `.json` iff the self link is non-empty; the department is the first listed (possibly null) or "Unassigned" when none is listed; Response is the response summary, null without a response object; each debate column is that debate link; text, state, count and milestones are copied |
| Fetch.ExtractAll | petitions_app.py:44-52 | one row per entry, in entry order |
| Fetch.LastRequest | petitions_app.py:34-87 | the loop ends at the first response that fails or has no next link |
| Fetch.FetchPetitions | petitions_app.py:34-87 | the number of requests is one more than the index of the first stopping response; the rows are those of every page before it, plus its own when its status is 200 |
| Fetch.RowPosition | petitions_app.py:44-52 | entry `i` of page `j` becomes the row after all rows of earlier pages and earlier entries |
| Fetch.LastRequestAt | petitions_app.py:37-38 | a response that stops the loop, preceded only by responses that do not, is the last one requested |
| Fetch.FailureKeepsEarlierPages | petitions_app.py:37-38 | a non-200 response ends the loop without error and contributes no rows |
| Fetch.LastPageKept | petitions_app.py:84-86 | a successful page without a next link ends the loop and its rows are kept |
| Fetch.ThreePages | petitions_app.py:34-87 | three pages linked by next links give three requests and all their entries in order |
| Fetch.JsonSuffixStripped | petitions_app.py:54 | a self link ending in `.json` links to the address without the suffix |
| Filter.FillDepartments | petitions_app.py:181 | a null department becomes "Unassigned"; nothing else in any row changes |
| Filter.StateOptions | petitions_app.py:184 | the state options are exactly the non-null states of the table |
| Filter.DepartmentOptions | petitions_app.py:185 | the department options are exactly the non-null departments of the table |
| Filter.Effective | petitions_app.py:275-276 | an empty selection allows every option, otherwise exactly the selected values |
| Filter.ChooseSearch | petitions_app.py:237-250 | exact matching iff something is chosen in the dropdown; substring matching on the typed text iff nothing is chosen and the text is non-empty; no petition filter otherwise |
| Filter.Lower | petitions_app.py:291 | lower-casing keeps the length and lowers each character |
| Filter.Select | petitions_app.py:295-300 | a row is in the filtered table iff it is in the table and passes every filter |
| Filter.SelectIsSubsequence | petitions_app.py:295-300 | filtering keeps the table order |
| Filter.SelectMultiplicity | petitions_app.py:295-300 | each passing row keeps all its copies, each failing row none |
| Filter.ApplyFilters | petitions_app.py:222-300 | once the table is non-empty, the app stops iff min exceeds max; otherwise the result is an ordered sub-table of the back-filled table holding every copy of each row that passes every filter and no other row |
| Filter.StatesSurviveFill | petitions_app.py:181-184 | back-filling departments does not change the state options |
| Filter.EmptyStateSelection | petitions_app.py:275 | with no state chosen, a row passes the state filter iff its state is not null |
| Filter.EmptyDepartmentSelection | petitions_app.py:276 | with no department chosen, every back-filled row passes the department filter |
| Filter.DropdownTakesPrecedence | petitions_app.py:238-244 | once the dropdown has a choice, the typed text is ignored and a row passes iff its text is chosen |
| Filter.SubstringIgnoresCase | petitions_app.py:290-292 | the case of the typed search text does not matter |
| Filter.PetitionMatchesMeaning | petitions_app.py:279-292 | with no active search every row passes; a null petition text fails any active search |
| Filter.SubstringMeaning | petitions_app.py:288-292 | typed text matches a petition iff some stretch of the petition text equals it ignoring case |
| Filter.Signed | petitions_app.py:192-196 | the signature counts present in the table |
| Filter.Min | petitions_app.py:195 | the least count, which is one of the counts |
| Filter.Max | petitions_app.py:196 | the greatest count, which is one of the counts |
| Filter.SignatureBounds | petitions_app.py:191-196 | `(0, 0)` when every count is null; otherwise the least and greatest count, both attained |
| Filter.DefaultRangeKeepsEverySigned | petitions_app.py:195-199 | every non-null count lies in the default range |
| Pagination.TotalPages | petitions_app.py:447-449 | at least one page; exactly enough pages of fifty for every row |
| Pagination.PageRows | petitions_app.py:452-454 | page `p` shows rows `50(p-1)` onwards, fifty or fewer, none beyond the table |
| Pagination.EveryRowOnItsPage | petitions_app.py:447-454 | every row appears on a page in range, at the position its index dictates |
| Pagination.ValidPageNotEmpty | petitions_app.py:447-454 | a page in range of a non-empty table shows at least one row |
| Pagination.StalePageShowsNothing | petitions_app.py:444-454 | a page number kept from a larger table can lie beyond the last page and then shows no rows |
| Pagination.Step | petitions_app.py:480-528 | First goes to 1, Last to the page count, Prev and Next move by one without leaving `1..total`, a typed number in range is taken and anything else ignored |
| Pagination.StepPreservesRange | petitions_app.py:480-528 | every control keeps an in-range page in range |
| Pagination.StepKeepsPositive | petitions_app.py:480-528 | no control makes the page number smaller than 1 |
| Pagination.RunPreservesRange | petitions_app.py:480-528 | any sequence of controls keeps an in-range page in range |
| Pagination.NextReachesEveryPage | petitions_app.py:518-522 | pressing Next from page 1 reaches every page |
| Pagination.NextFrom | petitions_app.py:518-522 | each press of Next before the last page adds one |
| Pagination.TypingAPageGoesThere | petitions_app.py:508-513 | typing the number of any page goes to that page |
| Pagination.TypingWithSpacesGoesThere | petitions_app.py:508-513 | a page number typed with spaces around it still goes to that page |
| Pagination.TypingRejectedStays | petitions_app.py:508-517 | any text `int()` rejects leaves the page unchanged |
| Pagination.TypingGarbageStays | petitions_app.py:514-517 | the empty box and the word "two" are such texts |
| Tooltip.ShortText | petitions_app.py:459 | the visible text is the whole text up to 50 characters, otherwise its first 50 followed by "..." |
| Tooltip.ReplaceChar | petitions_app.py:460 | replacing a character by text without it leaves no occurrence, and adds no character not already present |
| Tooltip.EscapeQuotes | petitions_app.py:460 | the title text contains no quote character of either kind |
| Tooltip.AddTooltip | petitions_app.py:456-461 | empty for a null or empty text; otherwise a span whose title is the escaped full text and whose content is the short text |
| Tooltip.TitleWellDelimited | petitions_app.py:460-461 | the only double quotes before the end of the opening tag are the two title delimiters |
| Tooltip.EscapeQuotesInOnePass | petitions_app.py:460 | the two chained replacements are one pass escaping each quote in place |
| Tooltip.TitleRoundTrip | petitions_app.py:460 | decoding the two entities gives back the full text, for any text without `&` |
| Numerals.ToBase | petitions_app.py:594 | a non-empty string of lower-case digits, one digit exactly for numbers below the base |
| Numerals.DigitsValueToBase | petitions_app.py:594 | a number's digits read back as the number |
| Numerals.ParseToBase | petitions_app.py:509 | `int()` (`ParseInt`) of a non-negative number's digits gives the number |
| Numerals.ParseNegativeToBase | petitions_app.py:579 | `int()` (`ParseInt`) of a minus sign and the digits gives the negative number |
| Numerals.ParseSkipsLeadingSpace | petitions_app.py:509 | `int()` ignores whitespace in front of the text |
| Numerals.ParseSkipsTrailingSpace | petitions_app.py:509 | `int()` ignores whitespace after the text |
| Numerals.ParseSpacedToBase | petitions_app.py:509 | a number's digits with spaces around them read as the number |
| Numerals.ParseDigitString | petitions_app.py:590 | a bare digit string parses to its value |
| Numerals.ParseTwoDigits | petitions_app.py:590 | two digits parse to the first times the base plus the second |
| Numerals.ParseShortBounds | petitions_app.py:590 | text of at most two characters parses, if at all, to a value between minus one digit and two full digits |
| Color.Format02x | petitions_app.py:594 | two lower-case hex digits iff the component is a byte; a leading minus iff it is negative |
| Color.RgbToHex | petitions_app.py:593-594 | a `#` followed by at least six characters |
| Color.RgbToHexShape | petitions_app.py:593-594 | a byte triple gives `#` and exactly six lower-case hex digits |
| Color.StripHashesMeaning | petitions_app.py:589 | `lstrip('#')` gives a suffix of the text, everything cut off is `#`, and what remains does not start with `#` |
| Color.StripHashesAppend | petitions_app.py:589 | stripping stops before the first other character, so text appended after it is kept whole |
| Color.HexToRgb | petitions_app.py:588-590 | a result needs at least five characters after the leading `#`s, and each component lies between -15 and 255 |
| Color.Format02xOfByte | petitions_app.py:594 | a byte is written as its two hex digits |
| Color.HexRoundTrip | petitions_app.py:588-594 | `hex_to_rgb(rgb_to_hex(c)) == c` for every byte triple |
| Color.HexRoundTripBack | petitions_app.py:588-594 | a lower-case `#rrggbb` string reads as a byte triple that is written back as the same string |
| Color.IgnoresTrailing | petitions_app.py:590 | characters after the sixth hex digit are ignored |
| Color.GradientStart | petitions_app.py:624-625 | the gradient's start colour `#74ac84` reads as (116, 172, 132) |
| Color.GradientEnd | petitions_app.py:624-625 | the gradient's end colour `#ffffff` reads as (255, 255, 255) |
| Thousands.Pad3 | petitions_app.py:531 | a thousands group is three decimal digits |
| Thousands.Group | petitions_app.py:531 | digits and commas, with a comma exactly before each group of three digits counted from the right, and never in front |
| Thousands.FormatThousands | petitions_app.py:531 | a minus sign exactly for a negative count, then the magnitude with a comma before each group of three digits and never a comma in front; without the commas the plain decimal text of the count |
| Thousands.GroupDigits | petitions_app.py:531 | removing the commas leaves the plain decimal digits |
| Thousands.ToBaseGroup | petitions_app.py:531 | a group of three digits appended to a number's digits is the number times a thousand plus the group |
| Thousands.SafeFloatReadsFormatted | petitions_app.py:574-579 | the integer branch of `safe_float`, applied directly to `"{:,}"` text, reads every integer back as itself |
| Thousands.SafeFloatIgnoresCommas | petitions_app.py:577-579 | a comma anywhere in the text does not change what the integer branch reads |
| Thousands.FormatMillion | petitions_app.py:531 | 1234567 is written "1,234,567" |
| Thousands.FormatNegativeThousand | petitions_app.py:531 | -1000 is written "-1,000" |
| Thousands.FormatBelowThousand | petitions_app.py:531 | 999 is written "999", without a separator |

## Left out

- The Streamlit page itself: widgets, tabs, spinner, warnings, reruns and
  session storage. Each pagination control is a transition of the stored
  page number, and the sidebar choices are the parameter `Selection`.
- Network and JSON decoding: the responses are a parameter, already decoded
  into `Entry` values. A server that never stops the loop is excluded by
  `Terminates`, since the script would request pages forever.
- Fetch.ExtractRow: entries that make the script raise are not representable.
  `.get("attributes", {})` and `.get("links", {})` (lines 45-46) default only
  a missing key; a key present with a null value gives `None`, and the next
  `.get` raises `AttributeError`. The same holds for a null top-level `links`
  (line 42) and for a null first department (line 81). `Entry` reads these
  as null fields, so extraction is total where the script stops.
- Parsing of timestamp text, time zones and the wall clock. Dates are
  microsecond instants or `None`; `today` is a parameter.
- Metrics.DaysBetween: ignores sub-microsecond precision. pandas Timestamps
  carry nanoseconds, but the service's millisecond times never use them.
- Average.AvgDaysBetween: takes the exact mean of the integer differences
  rounded towards zero, where the script rounds a floating-point mean; the
  two differ only when the float mean is off by more than its fractional part.
- Filter.Lower: lowers ASCII letters only; Unicode case mapping is not modelled.
- Numerals.ParseInt: accepts ASCII whitespace (including the separators
  0x1c-0x1f), an optional sign and ASCII digits. It does not model digit
  underscores, the `0x` prefix, non-ASCII digits or non-ASCII whitespace.
  These cannot occur in the `"{:,}"` output. They can occur in the page box
  (line 509): there `int()` reads "1_0" as 10, a full-width "２" as 2 and
  text wrapped in non-ASCII spaces as its number, while the model rejects
  them and leaves the page unchanged. In the two-character hex chunks of
  `hex_to_rgb` a full-width digit is likewise read by `int()` and rejected
  here; the gradient colours are plain ASCII.
- Thousands.SafeFloatInt: the float fallback of `safe_float` (lines 580-584)
  and its non-string and null branches are not modelled. In the script the
  string branch is unreachable (the day-count columns it is applied to are
  `Int64`); it is modelled on its own terms.
- Sorting the filtered table (line 451) and NaN placement in sort order. The
  pages are modelled over whatever order the table has.
- `interpolate_color`, `parse_color` and the `rgb(...)` colour format use
  floating-point interpolation and are not modelled. Only the hex helpers and
  the gradient's end colours are.
- The HTML of anchors, the Styler output, CSS, the Altair charts, the CSV
  download, the date formatting of the table, and the chart averages.
- The summary counts of the key-metrics tab (lines 377-382) and
  `format_number` (lines 368-371).
- Float-typed signature counts: once any count in the table is null, pandas
  stores the column as floats, so every present count formats as `1,234.0`
  and the null one as `nan`. Counts are integers here, formatted as the
  integer column of a table without nulls.
- The stop on an empty table (lines 165-167), which happens before any
  filter runs: `Filter.ApplyFilters` of an empty table is an empty result.
- The clamping of the min/max signature inputs by the number widgets
  (lines 199-219): the selection holds whatever two integers the widgets report.
- Tooltip.TitleRoundTrip: requires a text without `&`, because the script does
  not escape `&`, so a text already containing `&quot;` reads back as a quote.

=== FILE: average.dfy ===
/** `avg_days_between`: the mean number of days between two milestone
    columns over a (possibly filtered) table, shown on the key-metrics tab. */
module Average {
  import opened Common
  import opened Petition
  import opened Metrics

  /** The whole-day difference of one row, kept even when negative, or
      `None` (dropped) when either timestamp is missing. */
  function RowDiff(row: Row, start: Milestone, end: Milestone): Option<int> {
    var s := row.milestones.At(start);
    var e := row.milestones.At(end);
    if s.Some? && e.Some? then Some(FloorDays(e.value - s.value)) else None
  }

  /** The per-row differences that survive `dropna()`, in table order. */
  function Diffs(rows: seq<Row>, start: Milestone, end: Milestone): seq<int>
    decreases |rows|
  {
    if |rows| == 0 then []
    else
      var rest := Diffs(rows[1..], start, end);
      match RowDiff(rows[0], start, end)
      case Some(d) => [d] + rest
      case None => rest
  }

  function Sum(xs: seq<int>): int
    decreases |xs|
  {
    if |xs| == 0 then 0 else xs[0] + Sum(xs[1..])
  }

  /** Division of `sum` by a positive count rounded towards zero, as
      Python's `int()` of the floating-point mean. */
  function TruncDiv(sum: int, n: int): int
    requires n > 0
  {
    if sum >= 0 then sum / n else -((-sum) / n)
  }

  /** `mean` is the mean `sum / n` rounded towards zero. */
  predicate IsTruncatedMean(mean: int, sum: int, n: int) {
    n > 0 &&
    if sum >= 0 then 0 <= mean * n <= sum < (mean + 1) * n
    else (mean - 1) * n < sum <= mean * n <= 0
  }

  lemma TruncDivMeaning(sum: int, n: int)
    requires n > 0
    ensures IsTruncatedMean(TruncDiv(sum, n), sum, n)
  {
    if sum >= 0 {
      QuotientBounds(sum, n);
    } else {
      var q := (-sum) / n;
      QuotientBounds(-sum, n);
      assert (-q - 1) * n == -(q * n) - n;
      assert (-q) * n == -(q * n);
    }
  }

  /** For a non-negative `a`, `a / n` is the largest `q` with `q * n <= a`. */
  lemma QuotientBounds(a: int, n: int)
    requires a >= 0 && n > 0
    ensures 0 <= (a / n) * n <= a < (a / n + 1) * n
  {
    var q, r := a / n, a % n;
    assert a == q * n + r && 0 <= r < n;
    assert (q + 1) * n == q * n + n;
  }

  /** No row has both timestamps exactly when no difference survives. */
  lemma {:induction false} DiffsEmpty(rows: seq<Row>, start: Milestone, end: Milestone)
    ensures |Diffs(rows, start, end)| == 0 <==>
            forall i :: 0 <= i < |rows| ==> RowDiff(rows[i], start, end).None?
    decreases |rows|
  {
    if |rows| > 0 {
      DiffsEmpty(rows[1..], start, end);
      assert forall i :: 1 <= i < |rows| ==> rows[i] == rows[1..][i - 1];
    }
  }

  /** `avg_days_between(df, start_col, end_col)`. */
  function AvgDaysBetween(rows: seq<Row>, start: Milestone, end: Milestone): (r: Option<int>)
    ensures r.None? <==>
            forall i :: 0 <= i < |rows| ==>
              rows[i].milestones.At(start).None? || rows[i].milestones.At(end).None?
    ensures r.Some? ==>
              IsTruncatedMean(r.value, Sum(Diffs(rows, start, end)), |Diffs(rows, start, end)|)
  {
    DiffsEmpty(rows, start, end);
    var ds := Diffs(rows, start, end);
    if |ds| > 0 then
      TruncDivMeaning(Sum(ds), |ds|);
      Some(TruncDiv(Sum(ds), |ds|))
    else None
  }

  lemma {:induction false} DiffsAppend(a: seq<Row>, b: seq<Row>, start: Milestone, end: Milestone)
    ensures Diffs(a + b, start, end) == Diffs(a, start, end) + Diffs(b, start, end)
    decreases |a|
  {
    if |a| == 0 {
      assert a + b == b;
    } else {
      assert (a + b)[1..] == a[1..] + b;
      DiffsAppend(a[1..], b, start, end);
    }
  }

  lemma {:induction false} SumAppend(a: seq<int>, b: seq<int>)
    ensures Sum(a + b) == Sum(a) + Sum(b)
    decreases |a|
  {
    if |a| == 0 {
      assert a + b == b;
    } else {
      assert (a + b)[1..] == a[1..] + b;
      SumAppend(a[1..], b);
    }
  }

  /** Splitting a table splits the sum and the count of its differences. */
  lemma SplitDiffs(a: seq<Row>, b: seq<Row>, start: Milestone, end: Milestone)
    ensures Sum(Diffs(a + b, start, end)) == Sum(Diffs(a, start, end)) + Sum(Diffs(b, start, end))
    ensures |Diffs(a + b, start, end)| == |Diffs(a, start, end)| + |Diffs(b, start, end)|
  {
    DiffsAppend(a, b, start, end);
    SumAppend(Diffs(a, start, end), Diffs(b, start, end));
  }

  /** Taking element `i` out of a sequence removes one copy of it from the
      multiset of its elements. */
  lemma RemoveAt(s: seq<Row>, i: int)
    requires 0 <= i < |s|
    ensures s == s[..i] + [s[i]] + s[i + 1..]
    ensures multiset(s[..i] + s[i + 1..]) == multiset(s) - multiset{s[i]}
  {
    assert s == s[..i] + [s[i]] + s[i + 1..];
  }

  /** The sum and the count of the differences depend only on which rows are
      present, not on their order. */
  lemma {:induction false} DiffsPermutation(rows: seq<Row>, other: seq<Row>, start: Milestone, end: Milestone)
    requires multiset(rows) == multiset(other)
    ensures Sum(Diffs(rows, start, end)) == Sum(Diffs(other, start, end))
    ensures |Diffs(rows, start, end)| == |Diffs(other, start, end)|
    decreases |rows|
  {
    if |rows| == 0 {
      assert |other| == |multiset(other)| == 0;
    } else {
      var x := rows[0];
      var tail := rows[1..];
      assert x in multiset(other);
      var i :| 0 <= i < |other| && other[i] == x;
      var left, right := other[..i], other[i + 1..];
      RemoveAt(other, i);
      assert rows == [x] + tail;
      assert multiset(tail) == multiset(rows) - multiset{x};
      DiffsPermutation(tail, left + right, start, end);
      SplitDiffs([x], tail, start, end);
      SplitDiffs(left, right, start, end);
      SplitDiffs(left + [x], right, start, end);
      SplitDiffs(left, [x], start, end);
      assert other == left + [x] + right;
      ghost var sx, cx := Sum(Diffs([x], start, end)), |Diffs([x], start, end)|;
      ghost var sl, cl := Sum(Diffs(left, start, end)), |Diffs(left, start, end)|;
      ghost var sr, cr := Sum(Diffs(right, start, end)), |Diffs(right, start, end)|;
      assert Sum(Diffs(rows, start, end)) == sx + sl + sr;
      assert Sum(Diffs(other, start, end)) == sl + sx + sr;
      assert |Diffs(rows, start, end)| == cx + cl + cr;
      assert |Diffs(other, start, end)| == cl + cx + cr;
    }
  }

  /** The average does not depend on the order of the rows: sorting or
      reordering the filtered table leaves the key metric unchanged. */
  lemma AvgOrderIndependent(rows: seq<Row>, other: seq<Row>, start: Milestone, end: Milestone)
    requires multiset(rows) == multiset(other)
    ensures AvgDaysBetween(rows, start, end) == AvgDaysBetween(other, start, end)
  {
    DiffsPermutation(rows, other, start, end);
  }

  /** A row's surviving difference is the row's `days_between` value whenever
      that is defined; where the span is negative the average keeps the
      negative difference while the per-row column holds nothing. */
  lemma RowDiffVersusDaysBetween(row: Row, start: Milestone, end: Milestone)
    ensures var s, e := row.milestones.At(start), row.milestones.At(end);
            DaysBetween(s, e).Some? ==> RowDiff(row, start, end) == DaysBetween(s, e)
    ensures var s, e := row.milestones.At(start), row.milestones.At(end);
            s.Some? && e.Some? && e.value < s.value ==>
              DaysBetween(s, e).None? && RowDiff(row, start, end).Some? &&
              RowDiff(row, start, end).value < 0
  {
  }
}

=== FILE: color.dfy ===
/** The colour helpers of the table styling: `hex_to_rgb`, which reads a
    `#rrggbb` string into three integers, and `rgb_to_hex`, which writes
    three integers back with `'#{:02x}{:02x}{:02x}'`. */
module Color {
  import opened Common
  import opened Numerals

  /** An RGB triple; components are plain integers, as in the script. */
  type Rgb = (int, int, int)

  /** A colour component that fits in one byte. */
  predicate IsByte(n: int) {
    0 <= n < 256
  }

  predicate IsByteTriple(c: Rgb) {
    IsByte(c.0) && IsByte(c.1) && IsByte(c.2)
  }

  predicate IsLowerHexDigit(c: char) {
    '0' <= c <= '9' || 'a' <= c <= 'f'
  }

  /** `'{:02x}'.format(n)`: lower-case hexadecimal, zero-padded to two
      characters; a negative number keeps its minus sign and is never
      padded, since the sign already makes it two characters wide. */
  function Format02x(n: int): (s: string)
    ensures |s| >= 2
    ensures IsByte(n) <==> |s| == 2 && IsLowerHexDigit(s[0]) && IsLowerHexDigit(s[1])
    ensures n < 0 <==> s[0] == '-'
  {
    if n < 0 then "-" + ToBase(-n, 16)
    else if n < 16 then "0" + ToBase(n, 16)
    else ToBase(n, 16)
  }

  /** `rgb_to_hex`. */
  function RgbToHex(c: Rgb): (s: string)
    ensures |s| >= 7 && s[0] == '#'
  {
    "#" + Format02x(c.0) + Format02x(c.1) + Format02x(c.2)
  }

  /** A byte triple is written as a lower-case `#rrggbb` string. */
  lemma RgbToHexShape(c: Rgb)
    requires IsByteTriple(c)
    ensures IsLowerHexColor(RgbToHex(c))
  {
    WriteBytes(c.0, c.1, c.2);
  }

  /** `r` is `s` after a run of leading `#`s that leaves no `#` in front. */
  predicate IsHashesStripped(s: string, r: string) {
    && |r| <= |s| && r == s[|s| - |r|..]
    && (forall i :: 0 <= i < |s| - |r| ==> s[i] == '#')
    && (|r| > 0 ==> r[0] != '#')
  }

  /** `s.lstrip('#')`: every leading `#` removed. */
  function StripHashes(s: string): (r: string)
    ensures |r| <= |s|
    ensures |r| > 0 ==> r[0] != '#'
    ensures (forall i :: 0 <= i < |s| ==> s[i] == '#') ==> r == []
    decreases |s|
  {
    if |s| > 0 && s[0] == '#' then StripHashes(s[1..]) else s
  }

  /** What `lstrip('#')` leaves: a suffix of the text, after a run of `#`s,
      that does not itself start with `#`. */
  lemma {:induction false} StripHashesMeaning(s: string)
    ensures IsHashesStripped(s, StripHashes(s))
    decreases |s|
  {
    if |s| > 0 && s[0] == '#' {
      StripHashesMeaning(s[1..]);
    }
  }

  /** Python's slice `h[i:i + 2]`, cut short at the end of `h`. */
  function Chunk(h: string, i: nat): (c: string)
    ensures |c| <= 2
    ensures i + 2 <= |h| ==> c == h[i..i + 2]
    ensures i >= |h| ==> c == []
  {
    if i >= |h| then [] else if i + 2 <= |h| then h[i..i + 2] else h[i..]
  }

  /** `hex_to_rgb`: `None` where one of the three `int(_, 16)` calls raises. */
  function HexToRgb(s: string): (r: Option<Rgb>)
    ensures r.Some? ==> |StripHashes(s)| >= 5
    ensures r.Some? ==> -15 <= r.value.0 <= 255 && -15 <= r.value.1 <= 255 && -15 <= r.value.2 <= 255
  {
    var h := StripHashes(s);
    var red := ParseInt(Chunk(h, 0), 16);
    var green := ParseInt(Chunk(h, 2), 16);
    var blue := ParseInt(Chunk(h, 4), 16);
    if red.Some? && green.Some? && blue.Some? then
      ParseShortBounds(Chunk(h, 0), 16);
      ParseShortBounds(Chunk(h, 2), 16);
      ParseShortBounds(Chunk(h, 4), 16);
      Some((red.value, green.value, blue.value))
    else None
  }

  /** `HexToRgb` from the values its three chunks read as. */
  lemma ReadChunks(s: string, x: int, y: int, z: int)
    requires ParseInt(Chunk(StripHashes(s), 0), 16) == Some(x)
    requires ParseInt(Chunk(StripHashes(s), 2), 16) == Some(y)
    requires ParseInt(Chunk(StripHashes(s), 4), 16) == Some(z)
    ensures HexToRgb(s) == Some((x, y, z))
  {
  }

  /** Two hex digits, most significant first. */
  function HexPair(n: int): (s: string)
    requires IsByte(n)
  {
    [DigitChar(n / 16), DigitChar(n % 16)]
  }

  /** A byte is written as its two hex digits. */
  lemma Format02xOfByte(n: int)
    requires IsByte(n)
    ensures Format02x(n) == HexPair(n)
  {
    if n >= 16 {
      assert ToBase(n / 16, 16) == [DigitChar(n / 16)];
    }
  }

  /** The two digits of a byte read back as the byte. */
  lemma ParseHexPair(n: int)
    requires IsByte(n)
    ensures ParseInt(HexPair(n), 16) == Some(n)
  {
    ParseTwoDigits(DigitChar(n / 16), DigitChar(n % 16), 16);
  }

  /** `hex_to_rgb(rgb_to_hex(c)) == c` for every triple of bytes. */
  lemma {:induction false} HexRoundTrip(c: Rgb)
    requires IsByteTriple(c)
    ensures HexToRgb(RgbToHex(c)) == Some(c)
  {
    Format02xOfByte(c.0);
    Format02xOfByte(c.1);
    Format02xOfByte(c.2);
    var h := HexPair(c.0) + HexPair(c.1) + HexPair(c.2);
    assert RgbToHex(c) == "#" + h;
    assert StripHashes("#" + h) == h by {
      assert ("#" + h)[1..] == h;
      assert h[0] != '#';
    }
    assert Chunk(h, 0) == HexPair(c.0);
    assert Chunk(h, 2) == HexPair(c.1);
    assert Chunk(h, 4) == HexPair(c.2);
    ParseHexPair(c.0);
    ParseHexPair(c.1);
    ParseHexPair(c.2);
    ReadChunks(RgbToHex(c), c.0, c.1, c.2);
  }

  /** A well-formed `#rrggbb` string in lower case. */
  predicate IsLowerHexColor(s: string) {
    |s| == 7 && s[0] == '#' && forall i :: 1 <= i < 7 ==> IsLowerHexDigit(s[i])
  }

  /** The converse: a lower-case `#rrggbb` string is read and written back
      unchanged, so the two helpers are inverse bijections between byte
      triples and such strings. */
  lemma {:induction false} HexRoundTripBack(s: string)
    requires IsLowerHexColor(s)
    ensures HexToRgb(s).Some? && IsByteTriple(HexToRgb(s).value)
    ensures RgbToHex(HexToRgb(s).value) == s
  {
    var x := ReadPair(s[1], s[2]);
    var y := ReadPair(s[3], s[4]);
    var z := ReadPair(s[5], s[6]);
    ChunksOfColor(s);
    ReadChunks(s, x, y, z);
    WriteBytes(x, y, z);
    ColorAsPairs(s);
  }

  lemma ColorAsPairs(s: string)
    requires IsLowerHexColor(s)
    ensures s == "#" + [s[1], s[2]] + [s[3], s[4]] + [s[5], s[6]]
  {
  }

  /** The chunks of a `#rrggbb` string are its three digit pairs. */
  lemma ChunksOfColor(s: string)
    requires IsLowerHexColor(s)
    ensures Chunk(StripHashes(s), 0) == [s[1], s[2]]
    ensures Chunk(StripHashes(s), 2) == [s[3], s[4]]
    ensures Chunk(StripHashes(s), 4) == [s[5], s[6]]
  {
    var h := s[1..];
    assert StripHashes(s) == h by {
      assert h[0] != '#';
    }
  }

  /** Three bytes are written as `#` and their digit pairs. */
  lemma WriteBytes(x: int, y: int, z: int)
    requires IsByte(x) && IsByte(y) && IsByte(z)
    ensures RgbToHex((x, y, z)) == "#" + HexPair(x) + HexPair(y) + HexPair(z)
  {
    Format02xOfByte(x);
    Format02xOfByte(y);
    Format02xOfByte(z);
  }

  /** Two lower-case hex digits read as a byte whose pair is those digits. */
  lemma ReadPair(a: char, b: char) returns (n: int)
    requires IsLowerHexDigit(a) && IsLowerHexDigit(b)
    ensures ParseInt([a, b], 16) == Some(n)
    ensures IsByte(n) && HexPair(n) == [a, b]
  {
    var hi, lo := DigitValue(a).value, DigitValue(b).value;
    n := hi * 16 + lo;
    DigitCharOfValue(a);
    DigitCharOfValue(b);
    ParseTwoDigits(a, b, 16);
    assert n / 16 == hi && n % 16 == lo;
  }

  /** A lower-case digit is the digit `DigitChar` writes for its value. */
  lemma DigitCharOfValue(c: char)
    requires IsLowerHexDigit(c)
    ensures DigitValue(c).Some? && 0 <= DigitValue(c).value < 16
    ensures DigitChar(DigitValue(c).value) == c
  {
  }

  /** Characters after the sixth are ignored. */
  lemma IgnoresTrailing(s: string, extra: string)
    requires |StripHashes(s)| >= 6
    ensures HexToRgb(s + extra) == HexToRgb(s)
  {
    StripHashesAppend(s, extra);
    var h := StripHashes(s);
    assert Chunk(h + extra, 0) == Chunk(h, 0);
    assert Chunk(h + extra, 2) == Chunk(h, 2);
    assert Chunk(h + extra, 4) == Chunk(h, 4);
  }

  lemma {:induction false} StripHashesAppend(s: string, extra: string)
    requires |StripHashes(s)| > 0
    ensures StripHashes(s + extra) == StripHashes(s) + extra
    decreases |s|
  {
    if s[0] == '#' {
      assert (s + extra)[1..] == s[1..] + extra;
      StripHashesAppend(s[1..], extra);
    }
  }

  /** The start colour of the table's gradient. */
  lemma GradientStart()
    ensures HexToRgb("#74ac84") == Some((116, 172, 132))
  {
    var s := "#74ac84";
    ChunksOfColor(s);
    assert [s[1], s[2]] == "74" && [s[3], s[4]] == "ac" && [s[5], s[6]] == "84";
    ParsePairAs('7', '4', 116);
    ParsePairAs('a', 'c', 172);
    ParsePairAs('8', '4', 132);
    ReadChunks(s, 116, 172, 132);
  }

  /** The end colour of the table's gradient. */
  lemma GradientEnd()
    ensures HexToRgb("#ffffff") == Some((255, 255, 255))
  {
    var s := "#ffffff";
    ChunksOfColor(s);
    assert [s[1], s[2]] == "ff" && [s[3], s[4]] == "ff" && [s[5], s[6]] == "ff";
    ParsePairAs('f', 'f', 255);
    ReadChunks(s, 255, 255, 255);
  }

  lemma ParsePairAs(a: char, b: char, n: int)
    requires IsLowerHexDigit(a) && IsLowerHexDigit(b)
    requires n == DigitValue(a).value * 16 + DigitValue(b).value
    ensures ParseInt([a, b], 16) == Some(n)
  {
    ParseTwoDigits(a, b, 16);
  }
}

=== FILE: common.dfy ===
/** Shared vocabulary: the optional value used for every nullable column,
    Python truthiness of an optional string, and substring occurrence. */
module Common {

  /** A nullable value: `None` stands for Python's `None` / pandas' `NaN`/`NaT`. */
  datatype Option<+T> = None | Some(value: T)

  /** Python truthiness of a value that is either `None` or a string:
      `None` and `""` are falsy, every other string is truthy. */
  predicate Truthy(s: Option<string>) {
    s.Some? && |s.value| > 0
  }

  /** `p` occurs in `s` starting at index `i`. */
  predicate OccursAt(s: string, p: string, i: int) {
    0 <= i && i + |p| <= |s| && s[i..i + |p|] == p
  }

  /** Python's `p in s` for strings. */
  predicate Contains(s: string, p: string) {
    exists i :: 0 <= i <= |s| && OccursAt(s, p, i)
  }

  /** Every occurrence of `p` in `s` removed, scanning left to right and
      never overlapping: Python's `s.replace(p, "")` for a non-empty `p`. */
  function RemoveAll(s: string, p: string): (r: string)
    requires |p| > 0
    ensures |r| <= |s|
    ensures !Contains(s, p) ==> r == s
    decreases |s|
  {
    if |s| == 0 then []
    else if OccursAt(s, p, 0) then RemoveAll(s[|p|..], p)
    else
      assert !Contains(s, p) ==> !Contains(s[1..], p) by {
        forall i | 0 <= i <= |s[1..]| && OccursAt(s[1..], p, i)
          ensures OccursAt(s, p, i + 1)
        {
          assert s[i + 1..i + 1 + |p|] == s[1..][i..i + |p|];
        }
      }
      [s[0]] + RemoveAll(s[1..], p)
  }

  /** Removing `p` from `base + p`, when `p` does not start anywhere inside
      `base`, gives back `base`: stripping a genuine trailing `p`. */
  lemma {:induction false} RemoveAllTrailing(base: string, p: string)
    requires |p| > 0
    requires forall i :: 0 <= i < |base| ==> !OccursAt(base + p, p, i)
    ensures RemoveAll(base + p, p) == base
    decreases |base|
  {
    var s := base + p;
    if |base| == 0 {
      assert s == p;
      assert OccursAt(s, p, 0);
      assert s[|p|..] == [];
    } else {
      var rest := base[1..];
      assert s[1..] == rest + p;
      RemoveAllKeepsFirst(s, p);
      forall i | 0 <= i < |rest|
        ensures !OccursAt(rest + p, p, i)
      {
        ShiftOccurrence(base, p, i);
      }
      RemoveAllTrailing(rest, p);
      assert s[0] == base[0];
      assert [base[0]] + rest == base;
    }
  }

  /** A text that does not start with `p` keeps its first character. */
  lemma RemoveAllKeepsFirst(s: string, p: string)
    requires |p| > 0 && |s| > 0 && !OccursAt(s, p, 0)
    ensures RemoveAll(s, p) == [s[0]] + RemoveAll(s[1..], p)
  {
  }

  /** An occurrence in `base[1..] + p` at `i` is one in `base + p` at `i + 1`. */
  lemma ShiftOccurrence(base: string, p: string, i: int)
    requires 0 <= i < |base| - 1
    requires !OccursAt(base + p, p, i + 1)
    ensures !OccursAt(base[1..] + p, p, i)
  {
  }
}

=== FILE: fetch.dfy ===
/** `fetch_petitions`: the paging loop over the listing endpoint and the
    flattening of each petition entry into a table row. The HTTP responses
    are given as a sequence: `responses[k]` is what the request for page
    `k + 1` returns. */
module Fetch {
  import opened Common
  import opened Petition

  /** The department placed in a row whose entry lists no department. */
  const UNASSIGNED: string := "Unassigned"

  /** HTTP status of a successful page. */
  const OK_STATUS: int := 200

  datatype Department = Department(name: Option<string>)

  datatype GovernmentResponseData = GovernmentResponseData(summary: Option<string>)

  /** The three links of a debate object. */
  datatype DebateLinkKind = Video | Transcript | Research

  datatype DebateData = DebateData(
    videoUrl: Option<string>,
    transcriptUrl: Option<string>,
    debatePackUrl: Option<string>)
  {
    function Url(kind: DebateLinkKind): Option<string> {
      match kind
      case Video => videoUrl
      case Transcript => transcriptUrl
      case Research => debatePackUrl
    }
  }

  /** One element of a page's `data` array, with its nested `attributes`
      and `links` objects flattened. A missing `attributes` or `links` key
      reads every field under it as null, as `.get(..., {})` does; a
      missing or null `government_response` or `debate` is `None`, as
      `or {}` makes it; a missing department list is empty. */
  datatype Entry = Entry(
    action: Option<string>,
    state: Option<string>,
    signatureCount: Option<int>,
    milestones: Milestones,
    governmentResponse: Option<GovernmentResponseData>,
    debate: Option<DebateData>,
    departments: seq<Department>,
    selfLink: Option<string>)

  /** One HTTP response: its status, its entries and its `links.next`. */
  datatype Response = Response(status: int, entries: seq<Entry>, next: Option<string>)

  /** The petition page address: the JSON self link with every `.json` removed. */
  function PageUrl(selfLink: string): string {
    RemoveAll(selfLink, ".json")
  }

  /** A debate link column: the URL when the debate object has a non-empty one. */
  function DebateLink(debate: Option<DebateData>, kind: DebateLinkKind): (r: Option<string>)
    ensures r.Some? <==> debate.Some? && Truthy(debate.value.Url(kind))
    ensures r.Some? ==> r == debate.value.Url(kind)
  {
    if debate.Some? && Truthy(debate.value.Url(kind)) then debate.value.Url(kind) else None
  }

  /** The row built from one entry. */
  function ExtractRow(e: Entry): (r: Row)
    ensures r.petition.Linked? <==> Truthy(e.selfLink)
    ensures r.petition.Linked? ==> r.petition.href == PageUrl(e.selfLink.value)
    ensures r.petition.text == e.action && r.petitionText == e.action
    ensures |e.departments| == 0 ==> r.department == Some(UNASSIGNED)
    ensures |e.departments| > 0 ==> r.department == e.departments[0].name
    ensures r.response == (if e.governmentResponse.Some? then e.governmentResponse.value.summary else None)
    ensures r.debateVideo == DebateLink(e.debate, Video)
    ensures r.debateTranscript == DebateLink(e.debate, Transcript)
    ensures r.debateResearch == DebateLink(e.debate, Research)
    ensures r.milestones == e.milestones && r.state == e.state && r.signatures == e.signatureCount
  {
    Row(
      petition := if Truthy(e.selfLink) then Linked(PageUrl(e.selfLink.value), e.action) else Plain(e.action),
      petitionText := e.action,
      state := e.state,
      signatures := e.signatureCount,
      milestones := e.milestones,
      response := if e.governmentResponse.Some? then e.governmentResponse.value.summary else None,
      debateVideo := DebateLink(e.debate, Video),
      debateTranscript := DebateLink(e.debate, Transcript),
      debateResearch := DebateLink(e.debate, Research),
      department := if |e.departments| > 0 then e.departments[0].name else Some(UNASSIGNED))
  }

  /** The rows of one page, in entry order. */
  function ExtractAll(entries: seq<Entry>): (rows: seq<Row>)
    ensures |rows| == |entries|
    ensures forall i :: 0 <= i < |entries| ==> rows[i] == ExtractRow(entries[i])
  {
    seq(|entries|, i requires 0 <= i < |entries| => ExtractRow(entries[i]))
  }

  /** The rows of a run of pages, page after page. */
  function RowsOf(pages: seq<Response>): seq<Row>
    decreases |pages|
  {
    if |pages| == 0 then []
    else RowsOf(pages[..|pages| - 1]) + ExtractAll(pages[|pages| - 1].entries)
  }

  /** A response after which no further page is requested. */
  predicate Stops(r: Response) {
    r.status != OK_STATUS || !Truthy(r.next)
  }

  /** The server eventually answers with a response that ends the loop; the
      source loops forever otherwise. */
  predicate Terminates(responses: seq<Response>) {
    exists k :: 0 <= k < |responses| && Stops(responses[k])
  }

  /** The index of the response that ends the loop. */
  function LastRequest(responses: seq<Response>): (k: nat)
    requires Terminates(responses)
    ensures k < |responses| && Stops(responses[k])
    ensures forall j :: 0 <= j < k ==> !Stops(responses[j])
    decreases |responses|
  {
    if Stops(responses[0]) then 0
    else
      assert Terminates(responses[1..]) by {
        var k :| 0 <= k < |responses| && Stops(responses[k]);
        assert responses[1..][k - 1] == responses[k];
      }
      1 + LastRequest(responses[1..])
  }

  /** The pages whose entries are kept: every page up to the last request,
      the last one only if it succeeded. */
  function Kept(responses: seq<Response>): seq<Response>
    requires Terminates(responses)
  {
    var k := LastRequest(responses);
    if responses[k].status == OK_STATUS then responses[..k + 1] else responses[..k]
  }

  /** The paging loop. `requests` is the number of HTTP requests issued. */
  method FetchPetitions(responses: seq<Response>) returns (rows: seq<Row>, requests: nat)
    requires Terminates(responses)
    ensures requests == LastRequest(responses) + 1
    ensures rows == RowsOf(Kept(responses))
  {
    ghost var last := LastRequest(responses);
    rows := [];
    var page := 1;
    while true
      invariant 1 <= page <= last + 1
      invariant rows == RowsOf(responses[..page - 1])
      decreases last + 1 - page
    {
      var response := responses[page - 1];
      if response.status != OK_STATUS {
        break;
      }
      assert responses[..page] == responses[..page - 1] + [response];
      rows := rows + ExtractAll(response.entries);
      if !Truthy(response.next) {
        break;
      }
      page := page + 1;
    }
    requests := page;
  }

  lemma {:induction false} RowsOfAppend(a: seq<Response>, b: seq<Response>)
    ensures RowsOf(a + b) == RowsOf(a) + RowsOf(b)
    decreases |b|
  {
    if |b| == 0 {
      assert a + b == a;
    } else {
      var b' := b[..|b| - 1];
      var last := ExtractAll(b[|b| - 1].entries);
      assert (a + b)[..|a + b| - 1] == a + b';
      assert (a + b)[|a + b| - 1] == b[|b| - 1];
      RowsOfAppend(a, b');
      assert RowsOf(a + b) == RowsOf(a + b') + last;
      assert RowsOf(b) == RowsOf(b') + last;
    }
  }

  /** Source order is kept within and across pages: entry `i` of page `j`
      becomes row `|RowsOf(pages[..j])| + i`. */
  lemma RowPosition(pages: seq<Response>, j: int, i: int)
    requires 0 <= j < |pages| && 0 <= i < |pages[j].entries|
    ensures var at := |RowsOf(pages[..j])| + i;
            at < |RowsOf(pages)| && RowsOf(pages)[at] == ExtractRow(pages[j].entries[i])
  {
    PageInRows(pages, j);
    var page := ExtractAll(pages[j].entries);
    assert page[i] == ExtractRow(pages[j].entries[i]);
  }

  /** The rows of page `j` sit right after those of the pages before it. */
  lemma PageInRows(pages: seq<Response>, j: int)
    requires 0 <= j < |pages|
    ensures var before, page := RowsOf(pages[..j]), ExtractAll(pages[j].entries);
            |before| + |page| <= |RowsOf(pages)| &&
            RowsOf(pages)[|before|..|before| + |page|] == page
  {
    var front, back := pages[..j + 1], pages[j + 1..];
    assert pages == front + back;
    RowsOfAppend(front, back);
    RowsOfPrefix(pages, j);
  }

  /** The loop ends at the first response that stops it. */
  lemma LastRequestAt(responses: seq<Response>, k: int)
    requires 0 <= k < |responses| && Stops(responses[k])
    requires forall j :: 0 <= j < k ==> !Stops(responses[j])
    ensures Terminates(responses)
    ensures LastRequest(responses) == k
  {
    var n := LastRequest(responses);
    assert !(n < k) && !(k < n);
  }

  /** The rows of the first `k + 1` pages extend those of the first `k`. */
  lemma RowsOfPrefix(responses: seq<Response>, k: int)
    requires 0 <= k < |responses|
    ensures RowsOf(responses[..k + 1]) == RowsOf(responses[..k]) + ExtractAll(responses[k].entries)
  {
    var pages := responses[..k + 1];
    assert pages[..|pages| - 1] == responses[..k];
  }

  /** A failed request ends the loop and keeps exactly the rows of the pages
      fetched before it; nothing is raised. */
  lemma FailureKeepsEarlierPages(responses: seq<Response>, k: int)
    requires 0 <= k < |responses| && responses[k].status != OK_STATUS
    requires forall j :: 0 <= j < k ==> !Stops(responses[j])
    ensures Terminates(responses)
    ensures LastRequest(responses) == k
    ensures RowsOf(Kept(responses)) == RowsOf(responses[..k])
  {
    LastRequestAt(responses, k);
  }

  /** A successful page without a next link that follows only pages with a
      next link ends the loop, and its rows are kept. */
  lemma LastPageKept(responses: seq<Response>, k: int)
    requires 0 <= k < |responses|
    requires responses[k].status == OK_STATUS && !Truthy(responses[k].next)
    requires forall j :: 0 <= j < k ==> !Stops(responses[j])
    ensures Terminates(responses)
    ensures RowsOf(Kept(responses)) == RowsOf(responses[..k]) + ExtractAll(responses[k].entries)
  {
    LastRequestAt(responses, k);
    KeptAfterSuccess(responses);
    RowsOfPrefix(responses, k);
  }

  lemma KeptAfterSuccess(responses: seq<Response>)
    requires Terminates(responses)
    requires responses[LastRequest(responses)].status == OK_STATUS
    ensures RowsOf(Kept(responses)) == RowsOf(responses[..LastRequest(responses) + 1])
  {
  }

  /** Three pages, the first two pointing to a next page and the third not:
      exactly three requests, and every entry of the three pages kept. */
  lemma ThreePages(p1: Response, p2: Response, p3: Response)
    requires p1.status == OK_STATUS && Truthy(p1.next)
    requires p2.status == OK_STATUS && Truthy(p2.next)
    requires p3.status == OK_STATUS && !Truthy(p3.next)
    ensures Terminates([p1, p2, p3])
    ensures LastRequest([p1, p2, p3]) + 1 == 3
    ensures RowsOf(Kept([p1, p2, p3])) ==
            ExtractAll(p1.entries) + ExtractAll(p2.entries) + ExtractAll(p3.entries)
  {
    var rs := [p1, p2, p3];
    assert !Stops(rs[0]) && !Stops(rs[1]) && Stops(rs[2]);
    LastRequestAt(rs, 2);
    LastPageKept(rs, 2);
    var r1, r2, r3 := ExtractAll(p1.entries), ExtractAll(p2.entries), ExtractAll(p3.entries);
    RowsOfPrefix(rs, 0);
    assert rs[..0] == [];
    assert RowsOf(rs[..1]) == r1;
    RowsOfPrefix(rs, 1);
    assert RowsOf(rs[..2]) == r1 + r2;
  }

  /** An entry whose self link is a JSON address ending in `.json` (with no
      other occurrence) links to the address without the suffix. */
  lemma JsonSuffixStripped(base: string)
    requires forall i :: 0 <= i < |base| ==> !OccursAt(base + ".json", ".json", i)
    ensures PageUrl(base + ".json") == base
  {
    RemoveAllTrailing(base, ".json");
  }
}

=== FILE: filter.dfy ===
/** The sidebar filters: department back-filling, the state and department
    multiselects, the signature range, and the petition search (dropdown
    choices or free text), combined into the filtered table. */
module Filter {
  import opened Common
  import opened Petition
  import Fetch

  /** `df["Department"].fillna("Unassigned")`. */
  function FillDepartments(rows: seq<Row>): (filled: seq<Row>)
    ensures |filled| == |rows|
    ensures forall i :: 0 <= i < |rows| ==> filled[i].department.Some?
    ensures forall i :: 0 <= i < |rows| ==>
              filled[i] == rows[i].(department := filled[i].department)
    ensures forall i :: 0 <= i < |rows| && rows[i].department.Some? ==> filled[i] == rows[i]
    ensures forall i :: 0 <= i < |rows| && rows[i].department.None? ==>
              filled[i].department == Some(Fetch.UNASSIGNED)
  {
    seq(|rows|, i requires 0 <= i < |rows| =>
      if rows[i].department.Some? then rows[i] else rows[i].(department := Some(Fetch.UNASSIGNED)))
  }

  /** The distinct non-null states of the table: the state multiselect's options. */
  function StateOptions(rows: seq<Row>): (options: set<string>)
    ensures forall i :: 0 <= i < |rows| && rows[i].state.Some? ==> rows[i].state.value in options
    ensures forall s :: s in options ==> exists i :: 0 <= i < |rows| && rows[i].state == Some(s)
  {
    set i | 0 <= i < |rows| && rows[i].state.Some? :: rows[i].state.value
  }

  /** The distinct non-null departments: the department multiselect's options. */
  function DepartmentOptions(rows: seq<Row>): (options: set<string>)
    ensures forall i :: 0 <= i < |rows| && rows[i].department.Some? ==> rows[i].department.value in options
    ensures forall s :: s in options ==> exists i :: 0 <= i < |rows| && rows[i].department == Some(s)
  {
    set i | 0 <= i < |rows| && rows[i].department.Some? :: rows[i].department.value
  }

  /** An empty multiselect means "every option". */
  function Effective(selected: seq<string>, options: set<string>): (allowed: set<string>)
    ensures |selected| == 0 ==> allowed == options
    ensures |selected| > 0 ==> forall s :: s in allowed <==> s in selected
  {
    if |selected| == 0 then options else set s | s in selected
  }

  /** Which petition filter is active. */
  datatype Search =
    | NoSearch
    | Exact(texts: seq<string>)
    | Substring(needles: seq<string>)

  /** The dropdown choices win over the free text; free text is used only when
      it is non-empty and nothing is chosen in the dropdown. */
  function ChooseSearch(dropdowns: seq<string>, custom: string): (s: Search)
    ensures s.Exact? <==> |dropdowns| > 0
    ensures s.Exact? ==> s.texts == dropdowns
    ensures s.Substring? <==> |dropdowns| == 0 && |custom| > 0
    ensures s.Substring? ==> s.needles == [custom]
  {
    if |dropdowns| > 0 then Exact(dropdowns)
    else if |custom| > 0 then Substring([custom])
    else NoSearch
  }

  /** `str.lower` on ASCII letters. */
  function LowerChar(c: char): char {
    if 'A' <= c <= 'Z' then (c as int + 32) as char else c
  }

  function Lower(s: string): (r: string)
    ensures |r| == |s|
    ensures forall i :: 0 <= i < |s| ==> r[i] == LowerChar(s[i])
  {
    seq(|s|, i requires 0 <= i < |s| => LowerChar(s[i]))
  }

  /** The petition filter on one row's petition text: every row passes when no
      search is active, a null text never passes an active one. */
  predicate PetitionMatches(search: Search, text: Option<string>) {
    match search
    case NoSearch => true
    case Exact(texts) => text.Some? && text.value in texts
    case Substring(needles) =>
      text.Some? && exists n :: n in needles && Contains(Lower(text.value), Lower(n))
  }

  /** The four filters with their effective values. */
  datatype Criteria = Criteria(
    states: set<string>,
    departments: set<string>,
    search: Search,
    minSignatures: int,
    maxSignatures: int)

  /** One row passes all four filters; a null state, department or signature
      count never passes (`isin` and `between` are false on nulls). */
  predicate Keeps(c: Criteria, r: Row) {
    && r.state.Some? && r.state.value in c.states
    && r.department.Some? && r.department.value in c.departments
    && PetitionMatches(c.search, r.petitionText)
    && r.signatures.Some? && c.minSignatures <= r.signatures.value <= c.maxSignatures
  }

  /** The rows passing the filters, in table order. */
  function Select(rows: seq<Row>, c: Criteria): (kept: seq<Row>)
    ensures forall x :: x in kept <==> x in rows && Keeps(c, x)
    ensures |kept| <= |rows|
    decreases |rows|
  {
    if |rows| == 0 then []
    else if Keeps(c, rows[0]) then [rows[0]] + Select(rows[1..], c)
    else Select(rows[1..], c)
  }

  /** `a` is `b` with some elements left out, the rest in the same order. */
  predicate IsSubsequence<T(==)>(a: seq<T>, b: seq<T>)
    decreases |b|
  {
    if |a| == 0 then true
    else if |b| == 0 then false
    else (a[0] == b[0] && IsSubsequence(a[1..], b[1..])) || IsSubsequence(a, b[1..])
  }

  /** Filtering keeps the table order. */
  lemma {:induction false} SelectIsSubsequence(rows: seq<Row>, c: Criteria)
    ensures IsSubsequence(Select(rows, c), rows)
    decreases |rows|
  {
    if |rows| > 0 {
      SelectIsSubsequence(rows[1..], c);
      var kept := Select(rows, c);
      if Keeps(c, rows[0]) {
        assert kept[0] == rows[0] && kept[1..] == Select(rows[1..], c);
      } else if |kept| > 0 {
        assert kept == Select(rows[1..], c);
      }
    }
  }

  /** Filtering drops no duplicate of a passing row: each passing row occurs in
      the result as often as in the table, and no failing row occurs at all. */
  lemma {:induction false} SelectMultiplicity(rows: seq<Row>, c: Criteria, x: Row)
    ensures multiset(Select(rows, c))[x] == if Keeps(c, x) then multiset(rows)[x] else 0
    decreases |rows|
  {
    if |rows| > 0 {
      SelectMultiplicity(rows[1..], c, x);
      assert rows == [rows[0]] + rows[1..];
      assert multiset(rows)[x] == multiset([rows[0]])[x] + multiset(rows[1..])[x];
      if Keeps(c, rows[0]) {
        assert multiset([rows[0]] + Select(rows[1..], c))[x] ==
               multiset([rows[0]])[x] + multiset(Select(rows[1..], c))[x];
      }
    }
  }

  /** The user's sidebar choices. */
  datatype Selection = Selection(
    states: seq<string>,
    departments: seq<string>,
    minSignatures: int,
    maxSignatures: int,
    dropdowns: seq<string>,
    customSearch: string)

  /** The effective criteria of a selection over a (back-filled) table. */
  function CriteriaFor(table: seq<Row>, sel: Selection): Criteria {
    Criteria(
      Effective(sel.states, StateOptions(table)),
      Effective(sel.departments, DepartmentOptions(table)),
      ChooseSearch(sel.dropdowns, sel.customSearch),
      sel.minSignatures,
      sel.maxSignatures)
  }

  /** The filtered table, or `None` when the signature minimum exceeds the
      maximum (the app then stops with "Min cannot be greater than Max."). */
  function ApplyFilters(rows: seq<Row>, sel: Selection): (r: Option<seq<Row>>)
    ensures r.None? <==> sel.minSignatures > sel.maxSignatures
    ensures r.Some? ==> IsSubsequence(r.value, FillDepartments(rows))
    ensures r.Some? ==> forall x :: x in r.value ==>
              && x.state.Some? && x.state.value in Effective(sel.states, StateOptions(rows))
              && x.department.Some?
              && x.department.value in Effective(sel.departments, DepartmentOptions(FillDepartments(rows)))
              && PetitionMatches(ChooseSearch(sel.dropdowns, sel.customSearch), x.petitionText)
              && x.signatures.Some? && sel.minSignatures <= x.signatures.value <= sel.maxSignatures
    ensures r.Some? ==> forall x :: x in FillDepartments(rows) && Keeps(CriteriaFor(FillDepartments(rows), sel), x) ==>
              x in r.value
    ensures r.Some? ==> forall x :: multiset(r.value)[x] ==
                          (if Keeps(CriteriaFor(FillDepartments(rows), sel), x) then multiset(FillDepartments(rows))[x] else 0)
  {
    var table := FillDepartments(rows);
    if sel.minSignatures > sel.maxSignatures then None
    else
      var c := CriteriaFor(table, sel);
      SelectIsSubsequence(table, c);
      StatesSurviveFill(rows);
      forall x
        ensures multiset(Select(table, c))[x] == if Keeps(c, x) then multiset(table)[x] else 0
      {
        SelectMultiplicity(table, c, x);
      }
      Some(Select(table, c))
  }

  /** Back-filling departments leaves the state options alone. */
  lemma StatesSurviveFill(rows: seq<Row>)
    ensures StateOptions(FillDepartments(rows)) == StateOptions(rows)
  {
    var filled := FillDepartments(rows);
    assert forall i :: 0 <= i < |rows| ==> filled[i].state == rows[i].state;
  }

  /** With no state chosen, a row passes the state filter exactly when its
      state is not null: "all options" never lets a null state through. */
  lemma EmptyStateSelection(rows: seq<Row>, sel: Selection, i: int)
    requires |sel.states| == 0 && 0 <= i < |rows|
    ensures var allowed := Effective(sel.states, StateOptions(rows));
            (rows[i].state.Some? && rows[i].state.value in allowed) <==> rows[i].state.Some?
  {
  }

  /** After back-filling, an empty department selection lets every row pass
      the department filter. */
  lemma EmptyDepartmentSelection(rows: seq<Row>, sel: Selection, i: int)
    requires |sel.departments| == 0 && 0 <= i < |rows|
    ensures var table := FillDepartments(rows);
            table[i].department.Some? &&
            table[i].department.value in Effective(sel.departments, DepartmentOptions(table))
  {
  }

  /** Once something is chosen in the dropdown, the free text is ignored and a
      row passes exactly when its text is one of the choices. */
  lemma DropdownTakesPrecedence(dropdowns: seq<string>, custom: string, text: Option<string>)
    requires |dropdowns| > 0
    ensures PetitionMatches(ChooseSearch(dropdowns, custom), text) <==>
            text.Some? && text.value in dropdowns
  {
  }

  /** Free-text search ignores ASCII case: changing the case of the typed text
      changes nothing. */
  lemma SubstringIgnoresCase(custom: string, text: Option<string>)
    requires |custom| > 0
    ensures PetitionMatches(ChooseSearch([], custom), text) ==
            PetitionMatches(ChooseSearch([], Lower(custom)), text)
  {
    assert Lower(Lower(custom)) == Lower(custom);
  }

  /** The petition filter as the script states it: no active search keeps
      every row, a null text fails an active search, and free text matches
      when some stretch of the petition text equals it ignoring case. */
  lemma PetitionMatchesMeaning(search: Search, text: Option<string>)
    ensures search.NoSearch? ==> PetitionMatches(search, text)
    ensures !search.NoSearch? && text.None? ==> !PetitionMatches(search, text)
  {
  }

  /** The stretch of `t` at `i` as long as `q` equals `q`, ignoring case. */
  predicate MatchesAt(t: string, q: string, i: int) {
    0 <= i && i + |q| <= |t| && Lower(t[i..i + |q|]) == Lower(q)
  }

  /** Free text `q` matches a petition text `t` exactly when some stretch of
      `t` equals `q` ignoring case. */
  lemma {:induction false} SubstringMeaning(q: string, t: string)
    ensures PetitionMatches(Substring([q]), Some(t)) <==> exists i :: MatchesAt(t, q, i)
  {
    var lt, lq := Lower(t), Lower(q);
    if PetitionMatches(Substring([q]), Some(t)) {
      var i :| 0 <= i <= |lt| && OccursAt(lt, lq, i);
      assert Lower(t[i..i + |q|]) == lt[i..i + |q|];
      assert MatchesAt(t, q, i);
    }
    if i :| MatchesAt(t, q, i) {
      assert Lower(t[i..i + |q|]) == lt[i..i + |q|];
      assert OccursAt(lt, lq, i);
    }
  }

  /** The signature counts present in the table. */
  function Signed(rows: seq<Row>): (values: seq<int>)
    ensures forall v :: v in values <==> exists i :: 0 <= i < |rows| && rows[i].signatures == Some(v)
    decreases |rows|
  {
    if |rows| == 0 then []
    else
      var rest := Signed(rows[1..]);
      assert forall i :: 1 <= i < |rows| ==> rows[i] == rows[1..][i - 1];
      if rows[0].signatures.Some? then [rows[0].signatures.value] + rest else rest
  }

  function Min(xs: seq<int>): (m: int)
    requires |xs| > 0
    ensures m in xs && forall x :: x in xs ==> m <= x
    decreases |xs|
  {
    if |xs| == 1 then xs[0]
    else
      var m := Min(xs[1..]);
      assert forall x :: x in xs ==> x == xs[0] || x in xs[1..];
      if xs[0] <= m then xs[0] else m
  }

  function Max(xs: seq<int>): (m: int)
    requires |xs| > 0
    ensures m in xs && forall x :: x in xs ==> x <= m
    decreases |xs|
  {
    if |xs| == 1 then xs[0]
    else
      var m := Max(xs[1..]);
      assert forall x :: x in xs ==> x == xs[0] || x in xs[1..];
      if xs[0] >= m then xs[0] else m
  }

  /** The default signature range: `(0, 0)` when every count is null,
      otherwise the smallest and the largest count. */
  function SignatureBounds(rows: seq<Row>): (bounds: (int, int))
    ensures (forall i :: 0 <= i < |rows| ==> rows[i].signatures.None?) ==> bounds == (0, 0)
    ensures forall i :: 0 <= i < |rows| && rows[i].signatures.Some? ==>
              bounds.0 <= rows[i].signatures.value <= bounds.1
    ensures (exists i :: 0 <= i < |rows| && rows[i].signatures.Some?) ==>
              (exists i :: 0 <= i < |rows| && rows[i].signatures == Some(bounds.0)) &&
              (exists i :: 0 <= i < |rows| && rows[i].signatures == Some(bounds.1))
  {
    var values := Signed(rows);
    if |values| == 0 then (0, 0) else (Min(values), Max(values))
  }

  /** With the default range, the signature filter drops only the rows whose
      count is null. */
  lemma DefaultRangeKeepsEverySigned(rows: seq<Row>, i: int)
    requires 0 <= i < |rows| && rows[i].signatures.Some?
    ensures var (lo, hi) := SignatureBounds(rows);
            lo <= rows[i].signatures.value <= hi
  {
  }
}

=== FILE: metrics.dfy ===
/** The derived-metrics columns of the petition table: six closed-interval
    durations between milestones and three "still waiting" counters measured
    against one reference instant (`today`), all in whole days. */
module Metrics {
  import opened Common
  import opened Petition

  /** Whole days in `delta` microseconds, rounded towards minus infinity,
      as pandas' `Timedelta.days` counts them. */
  function FloorDays(delta: int): int {
    delta / MICROS_PER_DAY
  }

  /** `days` is the number of whole days in `delta`, rounded down. */
  predicate IsFloorDays(days: int, delta: int) {
    days * MICROS_PER_DAY <= delta < (days + 1) * MICROS_PER_DAY
  }

  /** `FloorDays` rounds down, and is non-negative exactly for a non-negative
      span: the `.days >= 0` guards of the script test the sign of the span. */
  lemma FloorDaysMeaning(delta: int)
    ensures IsFloorDays(FloorDays(delta), delta)
    ensures FloorDays(delta) >= 0 <==> delta >= 0
  {
  }

  /** `days_between`: the whole days from `start` to `end`, or `None` when
      either is missing or the span is negative. */
  function DaysBetween(start: Option<Instant>, end: Option<Instant>): (r: Option<int>)
    ensures r.Some? <==> start.Some? && end.Some? && start.value <= end.value
    ensures r.Some? ==> r.value >= 0 && IsFloorDays(r.value, end.value - start.value)
  {
    if start.None? || end.None? then None
    else
      FloorDaysMeaning(end.value - start.value);
      var days := FloorDays(end.value - start.value);
      if days >= 0 then Some(days) else None
  }

  /** The shape shared by the "waiting" columns: whole days since `since`,
      as long as `reached` (the next milestone) is absent and the elapsed
      day count is not negative. */
  function Waiting(since: Option<Instant>, reached: Option<Instant>, today: Instant): Option<int> {
    if since.Some? && reached.None? && FloorDays(today - since.value) >= 0
    then Some(FloorDays(today - since.value))
    else None
  }

  /** "Waiting for Gov Resp, days". */
  function WaitingForGovResp(m: Milestones, today: Instant): (r: Option<int>)
    ensures r.Some? <==>
              m.responseThresholdAt.Some? && m.governmentResponseAt.None? && m.responseThresholdAt.value <= today
    ensures r.Some? ==> r.value >= 0 && IsFloorDays(r.value, today - m.responseThresholdAt.value)
  {
    Waiting(m.responseThresholdAt, m.governmentResponseAt, today)
  }

  /** "Waiting for Deb Sched, days". */
  function WaitingForDebSched(m: Milestones, today: Instant): (r: Option<int>)
    ensures r.Some? <==>
              m.debateThresholdAt.Some? && m.scheduledDebateAt.None? && m.debateThresholdAt.value <= today
    ensures r.Some? ==> r.value >= 0 && IsFloorDays(r.value, today - m.debateThresholdAt.value)
  {
    Waiting(m.debateThresholdAt, m.scheduledDebateAt, today)
  }

  /** "Waiting for Deb Outcome, days": additionally requires the scheduled
      debate date to lie strictly before `today`. */
  function WaitingForDebOutcome(m: Milestones, today: Instant): (r: Option<int>)
    ensures r.Some? <==>
              m.scheduledDebateAt.Some? && m.scheduledDebateAt.value < today && m.debateOutcomeAt.None?
    ensures r.Some? ==> r.value >= 0 && IsFloorDays(r.value, today - m.scheduledDebateAt.value)
  {
    var s := m.scheduledDebateAt;
    if s.Some? && s.value < today && m.debateOutcomeAt.None? && FloorDays(today - s.value) >= 0
    then Some(FloorDays(today - s.value))
    else None
  }

  /** The `.days >= 0` guard of the debate-outcome counter never decides
      anything: the strict comparison with `today` already implies it. */
  lemma DebOutcomeGuardRedundant(m: Milestones, today: Instant)
    ensures WaitingForDebOutcome(m, today) ==
            (if m.scheduledDebateAt.Some? && m.scheduledDebateAt.value < today && m.debateOutcomeAt.None?
             then Some(FloorDays(today - m.scheduledDebateAt.value))
             else None)
  {
  }

  /** The debate-outcome counter agrees with the common waiting pattern except
      when the debate is scheduled at exactly `today`, where the pattern would
      give 0 and the counter gives nothing. */
  lemma DebOutcomeVersusPattern(m: Milestones, today: Instant)
    ensures m.scheduledDebateAt != Some(today) ==>
              WaitingForDebOutcome(m, today) == Waiting(m.scheduledDebateAt, m.debateOutcomeAt, today)
    ensures m.scheduledDebateAt == Some(today) && m.debateOutcomeAt.None? ==>
              WaitingForDebOutcome(m, today) == None &&
              Waiting(m.scheduledDebateAt, m.debateOutcomeAt, today) == Some(0)
  {
  }

  /** The six closed-interval duration columns. */
  datatype Interval =
    | OpenedToResponseThreshold
    | OpenedToDebateThreshold
    | CreatedToOpened
    | ResponseThresholdToGovernmentResponse
    | DebateThresholdToScheduled
    | ScheduledToOutcome
  {
    function Start(): Milestone {
      match this
      case OpenedToResponseThreshold => Opened
      case OpenedToDebateThreshold => Opened
      case CreatedToOpened => Created
      case ResponseThresholdToGovernmentResponse => ResponseThreshold
      case DebateThresholdToScheduled => DebateThreshold
      case ScheduledToOutcome => ScheduledDebate
    }

    function End(): Milestone {
      match this
      case OpenedToResponseThreshold => ResponseThreshold
      case OpenedToDebateThreshold => DebateThreshold
      case CreatedToOpened => Opened
      case ResponseThresholdToGovernmentResponse => GovernmentResponse
      case DebateThresholdToScheduled => ScheduledDebate
      case ScheduledToOutcome => DebateOutcome
    }
  }

  /** The nine computed columns of one row. */
  datatype Derived = Derived(
    openedToResponseThreshold: Option<int>,
    openedToDebateThreshold: Option<int>,
    createdToOpened: Option<int>,
    responseThresholdToGovernmentResponse: Option<int>,
    debateThresholdToScheduled: Option<int>,
    scheduledToOutcome: Option<int>,
    waitingForGovernmentResponse: Option<int>,
    waitingForScheduledDebate: Option<int>,
    waitingForDebateOutcome: Option<int>)
  {
    function Duration(iv: Interval): Option<int> {
      match iv
      case OpenedToResponseThreshold => openedToResponseThreshold
      case OpenedToDebateThreshold => openedToDebateThreshold
      case CreatedToOpened => createdToOpened
      case ResponseThresholdToGovernmentResponse => responseThresholdToGovernmentResponse
      case DebateThresholdToScheduled => debateThresholdToScheduled
      case ScheduledToOutcome => scheduledToOutcome
    }
  }

  /** The computed columns of a row with milestones `m`, as of `today`:
      each duration column is `days_between` of its interval's milestones. */
  function Derive(m: Milestones, today: Instant): (d: Derived)
    ensures forall iv: Interval :: d.Duration(iv) == DaysBetween(m.At(iv.Start()), m.At(iv.End()))
    ensures d.waitingForGovernmentResponse == WaitingForGovResp(m, today)
    ensures d.waitingForScheduledDebate == WaitingForDebSched(m, today)
    ensures d.waitingForDebateOutcome == WaitingForDebOutcome(m, today)
  {
    Derived(
      DaysBetween(m.openedAt, m.responseThresholdAt),
      DaysBetween(m.openedAt, m.debateThresholdAt),
      DaysBetween(m.createdAt, m.openedAt),
      DaysBetween(m.responseThresholdAt, m.governmentResponseAt),
      DaysBetween(m.debateThresholdAt, m.scheduledDebateAt),
      DaysBetween(m.scheduledDebateAt, m.debateOutcomeAt),
      WaitingForGovResp(m, today),
      WaitingForDebSched(m, today),
      WaitingForDebOutcome(m, today))
  }

  /** A duration column holds a value exactly when both milestones of its
      interval are recorded in order, and the value is their whole-day span. */
  lemma DurationMeaning(m: Milestones, today: Instant, iv: Interval)
    ensures var d, s, e := Derive(m, today).Duration(iv), m.At(iv.Start()), m.At(iv.End());
            (d.Some? <==> s.Some? && e.Some? && s.value <= e.value) &&
            (d.Some? ==> d.value >= 0 && IsFloorDays(d.value, e.value - s.value))
  {
  }

  /** Midnight UTC of 2023-12-30, 2024-01-01 and 2024-01-05. */
  const DEC_30_2023: Instant := 1_703_894_400_000_000
  const JAN_01_2024: Instant := 1_704_067_200_000_000
  const JAN_05_2024: Instant := 1_704_412_800_000_000

  /** Opened on 1 January, response threshold on 5 January: 4 days; a
      threshold dated 30 December, before the opening, gives no value
      rather than -2. */
  lemma OpenedToThresholdExamples(m: Milestones, today: Instant)
    requires m.openedAt == Some(JAN_01_2024)
    ensures m.responseThresholdAt == Some(JAN_05_2024) ==>
              Derive(m, today).openedToResponseThreshold == Some(4)
    ensures m.responseThresholdAt == Some(DEC_30_2023) ==>
              Derive(m, today).openedToResponseThreshold == None
  {
  }

  /** A response threshold reached exactly seven days before `today` with no
      government response gives a 7-day wait; any recorded response clears it. */
  lemma SevenDaysWaiting(m: Milestones, today: Instant, answered: Instant)
    requires m.responseThresholdAt == Some(today - 7 * MICROS_PER_DAY)
    ensures m.governmentResponseAt.None? ==> WaitingForGovResp(m, today) == Some(7)
    ensures WaitingForGovResp(m.(governmentResponseAt := Some(answered)), today) == None
  {
  }
}

=== FILE: numerals.dfy ===
/** Integer text in base 10 or 16: Python's `int(s, base)` parser and the
    digit strings its formatters produce. */
module Numerals {
  import opened Common

  /** The value of a digit character in base 16 or below, either case. */
  function DigitValue(c: char): Option<int> {
    if '0' <= c <= '9' then Some(c as int - '0' as int)
    else if 'a' <= c <= 'f' then Some(c as int - 'a' as int + 10)
    else if 'A' <= c <= 'F' then Some(c as int - 'A' as int + 10)
    else None
  }

  /** The two bases the app reads and writes. */
  predicate IsBase(base: int) {
    base == 10 || base == 16
  }

  predicate IsDigit(c: char, base: int) {
    DigitValue(c).Some? && DigitValue(c).value < base
  }

  predicate AllDigits(ds: string, base: int) {
    forall i :: 0 <= i < |ds| ==> IsDigit(ds[i], base)
  }

  /** The lower-case digit for `d`, as `format` writes it. */
  function DigitChar(d: int): (c: char)
    requires 0 <= d < 16
    ensures DigitValue(c) == Some(d)
    ensures '0' <= c <= '9' || 'a' <= c <= 'f'
  {
    if d < 10 then ('0' as int + d) as char else ('a' as int + d - 10) as char
  }

  /** The ASCII characters `str.strip` and `int` skip as whitespace: space,
      tab to carriage return, and the four separators 0x1c to 0x1f. */
  predicate IsSpace(c: char) {
    c == ' ' || '\t' <= c <= '\r' || '\U{1c}' <= c <= '\U{1f}'
  }

  function StripStart(s: string): (r: string)
    ensures |r| <= |s|
    ensures |r| > 0 ==> !IsSpace(r[0])
    decreases |s|
  {
    if |s| > 0 && IsSpace(s[0]) then StripStart(s[1..]) else s
  }

  function StripEnd(s: string): (r: string)
    ensures |r| <= |s|
    ensures |r| > 0 ==> !IsSpace(r[|r| - 1])
    decreases |s|
  {
    if |s| > 0 && IsSpace(s[|s| - 1]) then StripEnd(s[..|s| - 1]) else s
  }

  /** The value of a digit string, most significant digit first. */
  function DigitsValue(ds: string, base: int): (v: int)
    requires IsBase(base) && AllDigits(ds, base)
    ensures v >= 0
    decreases |ds|
  {
    if |ds| == 0 then 0
    else DigitsValue(ds[..|ds| - 1], base) * base + DigitValue(ds[|ds| - 1]).value
  }

  /** `s.strip()` for ASCII whitespace. */
  function Trim(s: string): (r: string)
    ensures |r| <= |s|
  {
    StripEnd(StripStart(s))
  }

  /** The text after an optional leading sign. */
  function Unsigned(t: string): (body: string)
    ensures |body| <= |t|
    ensures |body| == |t| ==> body == t
  {
    if |t| > 0 && (t[0] == '-' || t[0] == '+') then t[1..] else t
  }

  /** `int(s, base)`: surrounding whitespace ignored, an optional sign, then
      one or more digits of the base; anything else is a `ValueError`, here
      `None`. */
  function ParseInt(s: string, base: int): (r: Option<int>)
    requires IsBase(base)
  {
    var t := Trim(s);
    var body := Unsigned(t);
    if |body| > 0 && AllDigits(body, base) then
      var v := DigitsValue(body, base);
      Some(if |t| > 0 && t[0] == '-' then -v else v)
    else None
  }

  /** `n` written in `base` with lower-case digits and no leading zero. */
  function ToBase(n: nat, base: int): (ds: string)
    requires IsBase(base)
    ensures |ds| > 0 && AllDigits(ds, base)
    ensures forall i :: 0 <= i < |ds| ==> '0' <= ds[i] <= '9' || 'a' <= ds[i] <= 'f'
    ensures (|ds| == 1) <==> n < base
    decreases n
  {
    if n < base then [DigitChar(n)]
    else ToBase(n / base, base) + [DigitChar(n % base)]
  }

  /** Reading back what `ToBase` wrote gives the number. */
  lemma {:induction false} DigitsValueToBase(n: nat, base: int)
    requires IsBase(base)
    ensures DigitsValue(ToBase(n, base), base) == n
    decreases n
  {
    var ds := ToBase(n, base);
    if n >= base {
      DigitsValueToBase(n / base, base);
      assert ds[..|ds| - 1] == ToBase(n / base, base);
    } else {
      assert ds[..0] == [];
    }
  }

  /** A digit is neither a sign nor whitespace. */
  lemma DigitIsNotSignOrSpace(c: char, base: int)
    requires IsBase(base) && IsDigit(c, base)
    ensures c != '-' && c != '+' && !IsSpace(c)
  {
  }

  /** Text that neither starts nor ends with whitespace is not trimmed. */
  lemma TrimUntouched(s: string)
    requires |s| > 0 && !IsSpace(s[0]) && !IsSpace(s[|s| - 1])
    ensures Trim(s) == s
  {
    assert StripStart(s) == s;
  }

  /** An unsigned text parses as its digits when it is all digits. */
  lemma ParseUnsigned(s: string, base: int)
    requires IsBase(base) && Trim(s) == s && Unsigned(s) == s
    requires |s| > 0 && AllDigits(s, base) && s[0] != '-'
    ensures ParseInt(s, base) == Some(DigitsValue(s, base))
  {
  }

  /** A text with a leading minus parses as its negated digits. */
  lemma ParseMinus(s: string, ds: string, base: int)
    requires IsBase(base) && Trim(s) == s && |s| > 0 && s[0] == '-' && Unsigned(s) == ds
    requires |ds| > 0 && AllDigits(ds, base)
    ensures ParseInt(s, base) == Some(-DigitsValue(ds, base))
  {
  }

  /** A bare digit string parses to its value. */
  lemma ParseDigitString(ds: string, base: int)
    requires IsBase(base) && |ds| > 0 && AllDigits(ds, base)
    ensures ParseInt(ds, base) == Some(DigitsValue(ds, base))
  {
    DigitIsNotSignOrSpace(ds[0], base);
    DigitIsNotSignOrSpace(ds[|ds| - 1], base);
    TrimUntouched(ds);
    ParseUnsigned(ds, base);
  }

  /** A minus sign followed by a digit string parses to the negated value. */
  lemma ParseNegativeDigitString(ds: string, base: int)
    requires IsBase(base) && |ds| > 0 && AllDigits(ds, base)
    ensures ParseInt("-" + ds, base) == Some(-DigitsValue(ds, base))
  {
    var s := "-" + ds;
    var last := ds[|ds| - 1];
    DigitIsNotSignOrSpace(last, base);
    assert s[0] == '-' && s[|s| - 1] == last;
    TrimUntouched(s);
    assert s[1..] == ds;
    ParseMinus(s, ds, base);
  }

  /** `int(str(n), base)` round trip for a non-negative `n`. */
  lemma ParseToBase(n: nat, base: int)
    requires IsBase(base)
    ensures ParseInt(ToBase(n, base), base) == Some(n)
  {
    var ds := ToBase(n, base);
    DigitsValueToBase(n, base);
    ParseDigitString(ds, base);
  }

  /** The same with a minus sign in front, for a negative number. */
  lemma ParseNegativeToBase(n: int, base: int)
    requires IsBase(base) && n < 0
    ensures ParseInt("-" + ToBase(-n, base), base) == Some(n)
  {
    var m: nat := -n;
    var ds := ToBase(m, base);
    DigitsValueToBase(m, base);
    ParseNegativeDigitString(ds, base);
    assert -DigitsValue(ds, base) == n;
  }

  /** Two digits read as the most significant times the base plus the other. */
  lemma ParseTwoDigits(a: char, b: char, base: int)
    requires IsBase(base) && IsDigit(a, base) && IsDigit(b, base)
    ensures ParseInt([a, b], base) == Some(DigitValue(a).value * base + DigitValue(b).value)
  {
    var s := [a, b];
    assert AllDigits(s, base);
    ParseDigitString(s, base);
    TwoDigitsValue(s, base);
  }

  lemma TwoDigitsValue(s: string, base: int)
    requires IsBase(base) && |s| == 2 && AllDigits(s, base)
    ensures DigitsValue(s, base) == DigitValue(s[0]).value * base + DigitValue(s[1]).value
  {
    var first := s[..1];
    assert first[..0] == [] && first[0] == s[0];
    assert DigitsValue(first, base) == DigitValue(s[0]).value;
  }

  /** A text of at most two characters reads as a number between
      `-(base - 1)` (a sign and one digit) and `base * base - 1` (two digits). */
  lemma ParseShortBounds(s: string, base: int)
    requires IsBase(base) && |s| <= 2
    ensures ParseInt(s, base).Some? ==> -(base - 1) <= ParseInt(s, base).value <= base * base - 1
  {
    var t := Trim(s);
    var body := Unsigned(t);
    if |body| > 0 && AllDigits(body, base) {
      assert IsDigit(body[|body| - 1], base);
      if |body| == 2 {
        assert body == t;
        assert IsDigit(body[0], base);
        DigitIsNotSignOrSpace(body[0], base);
        TwoDigitsValue(body, base);
      } else {
        assert body[..0] == [];
        assert DigitsValue(body, base) == DigitValue(body[0]).value;
      }
    }
  }

  /** Whitespace in front of the text is ignored. */
  lemma ParseSkipsLeadingSpace(c: char, s: string, base: int)
    requires IsBase(base) && IsSpace(c)
    ensures ParseInt([c] + s, base) == ParseInt(s, base)
  {
    assert ([c] + s)[1..] == s;
    assert StripStart([c] + s) == StripStart(s);
  }

  /** Whitespace after the text is ignored. */
  lemma ParseSkipsTrailingSpace(s: string, c: char, base: int)
    requires IsBase(base) && IsSpace(c)
    ensures ParseInt(s + [c], base) == ParseInt(s, base)
  {
    TrimAppendSpace(s, c);
  }

  lemma {:induction false} TrimAppendSpace(s: string, c: char)
    requires IsSpace(c)
    ensures Trim(s + [c]) == Trim(s)
    decreases |s|
  {
    if |s| == 0 {
      assert StripStart([c]) == StripStart([c][1..]);
    } else if IsSpace(s[0]) {
      assert (s + [c])[1..] == s[1..] + [c];
      TrimAppendSpace(s[1..], c);
    } else {
      assert (s + [c])[..|s|] == s;
    }
  }

  /** `int()` of a page number typed with spaces around it still reads the
      number. */
  lemma ParseSpacedToBase(n: nat, base: int)
    requires IsBase(base)
    ensures ParseInt(" " + ToBase(n, base) + " ", base) == Some(n)
  {
    var ds := ToBase(n, base);
    ParseToBase(n, base);
    ParseSkipsTrailingSpace(ds, ' ', base);
    ParseSkipsLeadingSpace(' ', ds + " ", base);
    assert " " + ds + " " == [' '] + (ds + " ");
  }
}

=== FILE: pagination.dfy ===
/** The petition-list pagination: page count, the rows of one page, and the
    First / Prev / page-number / Next / Last controls as transitions of the
    current page number, which is kept across reruns. */
module Pagination {
  import opened Common
  import opened Numerals

  const ITEMS_PER_PAGE: int := 50

  /** `max(1, ceil(n / 50))`. */
  function TotalPages(n: nat): (t: int)
    ensures t >= 1
    ensures n == 0 ==> t == 1
    ensures n > 0 ==> (t - 1) * ITEMS_PER_PAGE < n <= t * ITEMS_PER_PAGE
  {
    if n == 0 then 1 else (n + ITEMS_PER_PAGE - 1) / ITEMS_PER_PAGE
  }

  /** `sorted_df.iloc[(page - 1) * 50 : (page - 1) * 50 + 50]`; slicing past the
      end yields fewer rows, or none. */
  function PageRows<T>(rows: seq<T>, page: int): (shown: seq<T>)
    requires page >= 1
    ensures var start := (page - 1) * ITEMS_PER_PAGE;
            |shown| == if start >= |rows| then 0
                       else if start + ITEMS_PER_PAGE <= |rows| then ITEMS_PER_PAGE
                       else |rows| - start
    ensures forall i :: 0 <= i < |shown| ==> shown[i] == rows[(page - 1) * ITEMS_PER_PAGE + i]
  {
    var start := (page - 1) * ITEMS_PER_PAGE;
    var end := start + ITEMS_PER_PAGE;
    if start >= |rows| then []
    else if end <= |rows| then rows[start..end]
    else rows[start..]
  }

  /** Every row is on exactly one page within `1..TotalPages`, at the position
      its index dictates. */
  lemma EveryRowOnItsPage<T>(rows: seq<T>, i: int)
    requires 0 <= i < |rows|
    ensures var page := i / ITEMS_PER_PAGE + 1;
            1 <= page <= TotalPages(|rows|) &&
            i % ITEMS_PER_PAGE < |PageRows(rows, page)| &&
            PageRows(rows, page)[i % ITEMS_PER_PAGE] == rows[i]
  {
    var page := i / ITEMS_PER_PAGE + 1;
    assert (page - 1) * ITEMS_PER_PAGE + i % ITEMS_PER_PAGE == i;
  }

  /** A page number within range shows at least one row of a non-empty table. */
  lemma ValidPageNotEmpty<T>(rows: seq<T>, page: int)
    requires |rows| > 0 && 1 <= page <= TotalPages(|rows|)
    ensures |PageRows(rows, page)| > 0
  {
  }

  /** A page number kept from a larger table (before the filters shrank it)
      can lie beyond the last page; that page shows no rows. */
  lemma StalePageShowsNothing<T>(rows: seq<T>, page: int)
    requires page > TotalPages(|rows|)
    ensures |PageRows(rows, page)| == 0
  {
    var t := TotalPages(|rows|);
    assert (page - 1) * ITEMS_PER_PAGE >= t * ITEMS_PER_PAGE;
  }

  /** The pagination controls. A page number typed in the input box arrives
      as `Some(n)` when `int()` accepts it and `None` otherwise. */
  datatype Control =
    | First
    | Prev
    | Next
    | Last
    | PageInput(parsed: Option<int>)

  /** The page number after one control is used on a table of `total` pages. */
  function Step(page: int, total: int, c: Control): (next: int)
    ensures c.First? ==> next == 1
    ensures c.Last? ==> next == total
    ensures c.Prev? ==> next == if page > 1 then page - 1 else page
    ensures c.Next? ==> next == if page < total then page + 1 else page
    ensures c.PageInput? ==>
              if c.parsed.Some? && 1 <= c.parsed.value <= total then next == c.parsed.value
              else next == page
  {
    match c
    case First => 1
    case Prev => if page > 1 then page - 1 else page
    case Next => if page < total then page + 1 else page
    case Last => total
    case PageInput(parsed) =>
      if parsed.Some? && 1 <= parsed.value <= total then parsed.value else page
  }

  /** The page-number box: its text is read with `int()`; text `int()`
      rejects leaves the page as it is. */
  function TypedPage(text: string): Control {
    PageInput(ParseInt(text, 10))
  }

  /** Typing the decimal number of any page of the table goes to that page. */
  lemma TypingAPageGoesThere(page: int, total: int, p: int)
    requires 1 <= p <= total
    ensures Step(page, total, TypedPage(ToBase(p, 10))) == p
  {
    ParseToBase(p, 10);
  }

  /** Spaces around the typed number are ignored, as `int()` strips them. */
  lemma TypingWithSpacesGoesThere(page: int, total: int, p: int)
    requires 1 <= p <= total
    ensures Step(page, total, TypedPage(" " + ToBase(p, 10) + " ")) == p
  {
    ParseSpacedToBase(p, 10);
  }

  /** Text that is not a number, such as an empty box, changes nothing. */
  lemma TypingRejectedStays(page: int, total: int, text: string)
    requires ParseInt(text, 10).None?
    ensures Step(page, total, TypedPage(text)) == page
  {
  }

  /** An empty box and a word are two such texts. */
  lemma TypingGarbageStays(page: int, total: int)
    ensures Step(page, total, TypedPage("")) == page
    ensures Step(page, total, TypedPage("two")) == page
  {
    assert Unsigned(Trim("")) == "";
    assert !IsDigit('t', 10);
    assert Unsigned(Trim("two"))[0] == 't';
  }

  /** Every control keeps the page number within `1..total` when it was
      within range before. */
  lemma StepPreservesRange(page: int, total: int, c: Control)
    requires 1 <= page <= total
    ensures 1 <= Step(page, total, c) <= total
  {
  }

  /** Every control keeps the page number positive, whatever the table size;
      only the upper bound depends on the page having been in range. */
  lemma StepKeepsPositive(page: int, total: int, c: Control)
    requires page >= 1 && total >= 1
    ensures Step(page, total, c) >= 1
  {
  }

  /** The page number after a sequence of controls. */
  function Run(page: int, total: int, cs: seq<Control>): int
    decreases |cs|
  {
    if |cs| == 0 then page else Run(Step(page, total, cs[0]), total, cs[1..])
  }

  /** Any sequence of controls on an unchanged table keeps an in-range page
      number in range. */
  lemma {:induction false} RunPreservesRange(page: int, total: int, cs: seq<Control>)
    requires 1 <= page <= total
    ensures 1 <= Run(page, total, cs) <= total
    decreases |cs|
  {
    if |cs| > 0 {
      StepPreservesRange(page, total, cs[0]);
      RunPreservesRange(Step(page, total, cs[0]), total, cs[1..]);
    }
  }

  function Repeat(c: Control, k: nat): (cs: seq<Control>)
    ensures |cs| == k && forall i :: 0 <= i < k ==> cs[i] == c
  {
    seq(k, _ => c)
  }

  /** Pressing Next `p - 1` times from the first page reaches page `p`, for
      every page of the table. */
  lemma NextReachesEveryPage(total: int, p: int)
    requires 1 <= p <= total
    ensures Run(1, total, Repeat(Next, p - 1)) == p
  {
    if p > 1 {
      NextFrom(1, total, p - 2);
    }
  }

  /** `k` presses of Next from `page` add `k` as long as the last page is not
      passed. */
  lemma {:induction false} NextFrom(page: int, total: int, k: nat)
    requires 1 <= page && page + k + 1 <= total
    ensures Run(page, total, Repeat(Next, k + 1)) == Run(page, total, Repeat(Next, k)) + 1
    ensures Run(page, total, Repeat(Next, k)) == page + k
    decreases k
  {
    var cs := Repeat(Next, k + 1);
    assert cs[1..] == Repeat(Next, k);
    if k == 0 {
      assert Run(page + 1, total, []) == page + 1;
    } else {
      NextFrom(page + 1, total, k - 1);
      assert Repeat(Next, k)[1..] == Repeat(Next, k - 1);
    }
  }
}

=== FILE: petition.dfy ===
/** The petition table: one row per petition, as assembled by the fetch
    loop and consumed by the metrics, the filters and the pagination. */
module Petition {
  import opened Common

  /** A UTC instant in whole microseconds since the Unix epoch. The
      petitions service sends millisecond times, so nothing is lost.
      Time-zone normalisation has already happened: every instant is on the
      same UTC axis. */
  type Instant = int

  /** Microseconds in one day: `Timedelta.days` counts these. */
  const MICROS_PER_DAY: int := 86_400_000_000

  /** The eight lifecycle milestones a petition may reach. */
  datatype Milestone =
    | Created
    | Opened
    | Closed
    | ResponseThreshold
    | GovernmentResponse
    | DebateThreshold
    | ScheduledDebate
    | DebateOutcome

  /** The milestone timestamps of one petition, each already parsed; an
      absent or unparseable timestamp is `None`. */
  datatype Milestones = Milestones(
    createdAt: Option<Instant>,
    openedAt: Option<Instant>,
    closedAt: Option<Instant>,
    responseThresholdAt: Option<Instant>,
    governmentResponseAt: Option<Instant>,
    debateThresholdAt: Option<Instant>,
    scheduledDebateAt: Option<Instant>,
    debateOutcomeAt: Option<Instant>)
  {
    /** The column of the table that holds milestone `m`. */
    function At(m: Milestone): Option<Instant> {
      match m
      case Created => createdAt
      case Opened => openedAt
      case Closed => closedAt
      case ResponseThreshold => responseThresholdAt
      case GovernmentResponse => governmentResponseAt
      case DebateThreshold => debateThresholdAt
      case ScheduledDebate => scheduledDebateAt
      case DebateOutcome => debateOutcomeAt
    }
  }

  /** The "Petition" column: a link to the petition page labelled with the
      petition text, or the bare text when the entry had no self link. */
  datatype PetitionCell =
    | Linked(href: string, text: Option<string>)
    | Plain(text: Option<string>)

  /** One row of the petition table. The debate columns hold the link target
      or `None` where the script renders an empty cell. */
  datatype Row = Row(
    petition: PetitionCell,
    petitionText: Option<string>,
    state: Option<string>,
    signatures: Option<int>,
    milestones: Milestones,
    response: Option<string>,
    debateVideo: Option<string>,
    debateTranscript: Option<string>,
    debateResearch: Option<string>,
    department: Option<string>)
}

=== FILE: thousands.dfy ===
/** The signature count as the petition table shows it, `"{:,}".format(n)`,
    and the integer branch of `safe_float`, `int(s.replace(',', ''))`. */
module Thousands {
  import opened Common
  import opened Numerals

  const COMMA: string := ","

  /** A group of three decimal digits, zero-padded: `m` below 1000. */
  function Pad3(m: int): (g: string)
    requires 0 <= m < 1000
    ensures |g| == 3 && AllDigits(g, 10)
  {
    [DigitChar(m / 100), DigitChar(m / 10 % 10), DigitChar(m % 10)]
  }

  /** Digits and commas, with a comma exactly at every fourth position
      counted from the right: one before each group of three digits. */
  predicate CommaEveryThree(s: string) {
    forall i :: 0 <= i < |s| ==>
      (s[i] == ',' <==> (|s| - 1 - i) % 4 == 3) && (s[i] == ',' || IsDigit(s[i], 10))
  }

  /** The decimal digits of `n` with a comma before every group of three
      counted from the right. */
  function Group(n: nat): (s: string)
    ensures |s| > 0 && s[0] != ','
    ensures CommaEveryThree(s)
    decreases n
  {
    if n < 1000 then
      ShortGroup(n);
      ToBase(n, 10)
    else
      var head := Group(n / 1000);
      GroupAppend(head, Pad3(n % 1000));
      head + COMMA + Pad3(n % 1000)
  }

  /** A number below a thousand is a single group without commas. */
  lemma ShortGroup(n: nat)
    requires n < 1000
    ensures CommaEveryThree(ToBase(n, 10)) && ToBase(n, 10)[0] != ','
  {
    ToBaseBelowThousand(n);
  }

  /** A further group of three digits after a comma keeps the pattern. */
  lemma GroupAppend(g: string, p: string)
    requires |g| > 0 && g[0] != ',' && CommaEveryThree(g)
    requires |p| == 3 && AllDigits(p, 10)
    ensures CommaEveryThree(g + COMMA + p) && (g + COMMA + p)[0] != ','
  {
    var s := g + COMMA + p;
    forall i | 0 <= i < |s|
      ensures (s[i] == ',' <==> (|s| - 1 - i) % 4 == 3) && (s[i] == ',' || IsDigit(s[i], 10))
    {
      if i < |g| {
        assert s[i] == g[i];
        assert (|s| - 1 - i) % 4 == (|g| - 1 - i) % 4;
      } else if i > |g| {
        assert s[i] == p[i - |g| - 1];
      }
    }
  }

  /** A number below a thousand has at most three digits. */
  lemma ToBaseBelowThousand(n: nat)
    requires n < 1000
    ensures |ToBase(n, 10)| <= 3
  {
    if n >= 10 {
      assert ToBase(n, 10) == ToBase(n / 10, 10) + [DigitChar(n % 10)];
      if n / 10 >= 10 {
        assert ToBase(n / 10, 10) == ToBase(n / 100, 10) + [DigitChar(n / 10 % 10)];
      }
    }
  }

  /** `"{:,}".format(n)` for an integer: a minus sign exactly for a negative
      number, then the grouped magnitude; without its commas it is the plain
      decimal text `str(n)`. */
  function FormatThousands(n: int): (s: string)
    ensures |s| > 0 && (s[0] == '-' <==> n < 0)
    ensures n < 0 ==> |s| > 1 && s[1] != ',' && CommaEveryThree(s[1..])
    ensures n < 0 ==> RemoveAll(s, COMMA) == "-" + ToBase(-n, 10)
    ensures n >= 0 ==> s[0] != ',' && CommaEveryThree(s)
    ensures n >= 0 ==> RemoveAll(s, COMMA) == ToBase(n, 10)
  {
    if n < 0 then
      SignedGroupDigits(-n);
      "-" + Group(-n)
    else
      UnsignedGroupDigits(n);
      Group(n)
  }

  /** Without its commas a grouping is the plain decimal text, which starts
      with a digit. */
  lemma UnsignedGroupDigits(n: nat)
    ensures RemoveAll(Group(n), COMMA) == ToBase(n, 10)
    ensures Group(n)[0] != '-'
  {
    GroupDigits(n);
    assert IsDigit(Group(n)[0], 10);
  }

  /** The minus sign survives the removal of the commas. */
  lemma SignedGroupDigits(n: nat)
    ensures RemoveAll("-" + Group(n), COMMA) == "-" + ToBase(n, 10)
    ensures ("-" + Group(n))[1..] == Group(n)
    ensures |"-" + Group(n)| > 1 && ("-" + Group(n))[1] != ','
  {
    GroupDigits(n);
    RemoveCommaAppend("-", Group(n));
    RemoveCommaAbsent("-");
  }

  /** The integer branch of `safe_float` on a string: `None` where `int()`
      raises and the float fallback would take over. */
  function SafeFloatInt(s: string): Option<int> {
    ParseInt(RemoveAll(s, COMMA), 10)
  }

  /** `int()` accepts the text with its commas removed and gives back the
      number: the formatted count reads back as the count itself. */
  lemma {:induction false} SafeFloatReadsFormatted(n: int)
    ensures SafeFloatInt(FormatThousands(n)) == Some(n)
  {
    if n >= 0 {
      ParseToBase(n, 10);
    } else {
      ParseNegativeToBase(n, 10);
    }
  }

  /** The commas are dropped wherever they stand: a comma between two texts
      does not change what `safe_float` reads. */
  lemma SafeFloatIgnoresCommas(a: string, b: string)
    ensures SafeFloatInt(a + COMMA + b) == SafeFloatInt(a + b)
  {
    RemoveCommaBetween(a, b);
    RemoveCommaAppend(a, b);
  }

  /** A comma between two texts disappears. */
  lemma RemoveCommaBetween(g: string, p: string)
    ensures RemoveAll(g + COMMA + p, COMMA) == RemoveAll(g, COMMA) + RemoveAll(p, COMMA)
  {
    var r := RemoveAll(g, COMMA);
    RemoveCommaAppend(g + COMMA, p);
    RemoveCommaAppend(g, COMMA);
    RemoveLoneComma();
    assert RemoveAll(g + COMMA, COMMA) == r + [] == r;
  }

  /** The comma on its own is removed entirely. */
  lemma RemoveLoneComma()
    ensures RemoveAll(COMMA, COMMA) == []
  {
    assert OccursAt(COMMA, COMMA, 0);
    assert COMMA[1..] == [];
  }

  /** Removing the commas from `Group(n)` leaves the plain decimal digits. */
  lemma {:induction false} GroupDigits(n: nat)
    ensures RemoveAll(Group(n), COMMA) == ToBase(n, 10)
    decreases n
  {
    if n < 1000 {
      RemoveCommaAbsent(ToBase(n, 10));
    } else {
      var q, m := n / 1000, n % 1000;
      assert q >= 1 && q * 1000 + m == n;
      var head, tail := Group(q), Pad3(m);
      assert Group(n) == head + COMMA + tail;
      GroupDigits(q);
      DigitsHaveNoComma(tail);
      RemoveCommaBeforeGroup(head, tail);
      ToBaseGroup(q, m);
    }
  }

  lemma DigitsHaveNoComma(ds: string)
    requires AllDigits(ds, 10)
    ensures forall i :: 0 <= i < |ds| ==> ds[i] != ','
  {
  }

  /** The separator before a comma-free group disappears. */
  lemma RemoveCommaBeforeGroup(g: string, p: string)
    requires forall i :: 0 <= i < |p| ==> p[i] != ','
    ensures RemoveAll(g + COMMA + p, COMMA) == RemoveAll(g, COMMA) + p
  {
    RemoveCommaBetween(g, p);
    RemoveCommaAbsent(p);
  }

  /** Removing a one-character pattern works piece by piece. */
  lemma {:induction false} RemoveCommaAppend(a: string, b: string)
    ensures RemoveAll(a + b, COMMA) == RemoveAll(a, COMMA) + RemoveAll(b, COMMA)
    decreases |a|
  {
    if |a| > 0 {
      assert (a + b)[1..] == a[1..] + b;
      assert (a + b)[..1] == a[..1];
      RemoveCommaAppend(a[1..], b);
    } else {
      assert a + b == b;
    }
  }

  /** A text without a comma is left as it is. */
  lemma RemoveCommaAbsent(s: string)
    requires forall i :: 0 <= i < |s| ==> s[i] != ','
    ensures RemoveAll(s, COMMA) == s
  {
  }

  /** Appending one digit multiplies by ten and adds it. */
  lemma ToBaseDigit(q: nat, d: int, n: nat)
    requires q >= 1 && 0 <= d < 10 && n == q * 10 + d
    ensures ToBase(n, 10) == ToBase(q, 10) + [DigitChar(d)]
  {
    assert n / 10 == q && n % 10 == d;
  }

  /** Appending a zero-padded group multiplies by a thousand and adds it. */
  lemma ToBaseGroup(q: nat, m: int)
    requires q >= 1 && 0 <= m < 1000
    ensures ToBase(q * 1000 + m, 10) == ToBase(q, 10) + Pad3(m)
  {
    var d2, d1, d0 := m / 100, m / 10 % 10, m % 10;
    GroupDigitValues(m);
    var a: nat := q * 10 + d2;
    var b: nat := a * 10 + d1;
    var n: nat := b * 10 + d0;
    assert n == q * 1000 + m;
    var tq, c2, c1, c0 := ToBase(q, 10), DigitChar(d2), DigitChar(d1), DigitChar(d0);
    ToBaseDigit(q, d2, a);
    ToBaseDigit(a, d1, b);
    ToBaseDigit(b, d0, n);
    assert ToBase(n, 10) == tq + [c2] + [c1] + [c0];
    assert Pad3(m) == [c2] + [c1] + [c0];
    assert tq + [c2] + [c1] + [c0] == tq + ([c2] + [c1] + [c0]);
  }

  /** The three digits of a group and their weights. */
  lemma GroupDigitValues(m: int)
    requires 0 <= m < 1000
    ensures 0 <= m / 100 < 10 && 0 <= m / 10 % 10 < 10 && 0 <= m % 10 < 10
    ensures m == m / 100 * 100 + m / 10 % 10 * 10 + m % 10
  {
  }

  /** A count of a million and more gets two separators. */
  lemma FormatMillion()
    ensures FormatThousands(1234567) == "1,234,567"
  {
    GroupOf1234();
    assert Pad3(567) == "567";
    assert Group(1234567) == Group(1234) + "," + Pad3(567);
  }

  lemma GroupOf1234()
    ensures Group(1234) == "1,234"
  {
    assert ToBase(1, 10) == "1";
    assert Pad3(234) == "234";
    assert Group(1234) == ToBase(1, 10) + "," + Pad3(234);
  }

  /** A negative count keeps its sign in front of the grouping. */
  lemma FormatNegativeThousand()
    ensures FormatThousands(-1000) == "-1,000"
  {
    assert ToBase(1, 10) == "1";
    assert Pad3(0) == "000";
    assert Group(1000) == "1,000";
  }

  /** A count below a thousand has no separator. */
  lemma FormatBelowThousand()
    ensures FormatThousands(999) == "999"
  {
    assert ToBase(99, 10) == ToBase(9, 10) + "9";
    assert ToBase(999, 10) == ToBase(99, 10) + "9";
  }
}

=== FILE: tooltip.dfy ===
/** `add_tooltip`: the government-response cell of the petition list, a
    shortened visible text with the full text in a `title` attribute. */
module Tooltip {
  import opened Common

  /** Longest text shown in full. */
  const MAX_LEN: int := 50

  const ELLIPSIS: string := "..."
  const QUOT: string := "&quot;"
  const APOS: string := "&apos;"
  const OPEN_TAG: string := "<span title=\""
  const OPEN_TAG_END: string := "\">"
  const CLOSE_TAG: string := "</span>"

  /** The visible text: the whole text up to 50 characters, otherwise its
      first 50 characters followed by "...". */
  function ShortText(t: string): (r: string)
    ensures |r| <= MAX_LEN + |ELLIPSIS|
    ensures |t| <= MAX_LEN ==> r == t
    ensures |t| > MAX_LEN ==> |r| == MAX_LEN + |ELLIPSIS| && r[..MAX_LEN] == t[..MAX_LEN] && r[MAX_LEN..] == ELLIPSIS
  {
    if |t| <= MAX_LEN then t else t[..MAX_LEN] + ELLIPSIS
  }

  /** Python's `s.replace(c, rep)` for a one-character pattern. */
  function ReplaceChar(s: string, c: char, rep: string): (r: string)
    ensures c !in rep ==> c !in r
    ensures forall d :: d !in s && d !in rep ==> d !in r
    decreases |s|
  {
    if |s| == 0 then []
    else (if s[0] == c then rep else [s[0]]) + ReplaceChar(s[1..], c, rep)
  }

  /** `text.replace('"', '&quot;').replace("'", '&apos;')`. */
  function EscapeQuotes(t: string): (r: string)
    ensures '"' !in r && '\'' !in r
  {
    ReplaceChar(ReplaceChar(t, '"', QUOT), '\'', APOS)
  }

  /** The cell markup: empty for a null or empty text. */
  function AddTooltip(text: Option<string>): (r: string)
    ensures !Truthy(text) ==> r == ""
    ensures Truthy(text) ==>
              var title := EscapeQuotes(text.value);
              && |r| == |OPEN_TAG| + |title| + |OPEN_TAG_END| + |ShortText(text.value)| + |CLOSE_TAG|
              && r[..|OPEN_TAG|] == OPEN_TAG
              && r[|OPEN_TAG|..|OPEN_TAG| + |title|] == title
              && r[|OPEN_TAG| + |title|..|OPEN_TAG| + |title| + |OPEN_TAG_END|] == OPEN_TAG_END
              && r[|OPEN_TAG| + |title| + |OPEN_TAG_END|..|r| - |CLOSE_TAG|] == ShortText(text.value)
  {
    if !Truthy(text) then ""
    else OPEN_TAG + EscapeQuotes(text.value) + OPEN_TAG_END + ShortText(text.value) + CLOSE_TAG
  }

  /** The title attribute cannot be broken out of: up to the end of the
      opening tag, the only double quotes are the two attribute delimiters. */
  lemma TitleWellDelimited(t: string, i: int)
    requires |t| > 0
    requires 0 <= i < |OPEN_TAG| + |EscapeQuotes(t)| + |OPEN_TAG_END|
    requires AddTooltip(Some(t))[i] == '"'
    ensures i == |OPEN_TAG| - 1 || i == |OPEN_TAG| + |EscapeQuotes(t)|
  {
    var title := EscapeQuotes(t);
    var r := AddTooltip(Some(t));
    if i < |OPEN_TAG| {
      assert r[i] == OPEN_TAG[i];
    } else if i >= |OPEN_TAG| + |title| {
      assert r[i] == OPEN_TAG_END[i - |OPEN_TAG| - |title|];
    }
  }

  /** Both replacements in one pass: the two chained replaces act on
      disjoint characters, so they amount to escaping each quote in place. */
  function EscapeEach(t: string): string
    decreases |t|
  {
    if |t| == 0 then []
    else
      (if t[0] == '"' then QUOT else if t[0] == '\'' then APOS else [t[0]]) + EscapeEach(t[1..])
  }

  lemma {:induction false} ReplaceCharAppend(a: string, b: string, c: char, rep: string)
    ensures ReplaceChar(a + b, c, rep) == ReplaceChar(a, c, rep) + ReplaceChar(b, c, rep)
    decreases |a|
  {
    if |a| == 0 {
      assert a + b == b;
    } else {
      assert (a + b)[1..] == a[1..] + b;
      ReplaceCharAppend(a[1..], b, c, rep);
    }
  }

  lemma {:induction false} EscapeQuotesInOnePass(t: string)
    ensures EscapeQuotes(t) == EscapeEach(t)
    decreases |t|
  {
    if |t| > 0 {
      EscapeQuotesInOnePass(t[1..]);
      var head := if t[0] == '"' then QUOT else [t[0]];
      assert ReplaceChar(t, '"', QUOT) == head + ReplaceChar(t[1..], '"', QUOT);
      ReplaceCharAppend(head, ReplaceChar(t[1..], '"', QUOT), '\'', APOS);
      if t[0] == '"' {
        assert ReplaceChar(QUOT, '\'', APOS) == QUOT by {
          assert '\'' !in QUOT;
          ReplaceCharIdentity(QUOT, '\'', APOS);
        }
      } else {
        assert head[1..] == [];
      }
    }
  }

  /** A string without the pattern character is left as it is. */
  lemma {:induction false} ReplaceCharIdentity(s: string, c: char, rep: string)
    requires c !in s
    ensures ReplaceChar(s, c, rep) == s
    decreases |s|
  {
    if |s| > 0 {
      ReplaceCharIdentity(s[1..], c, rep);
    }
  }

  /** Decoding the two entities back into quotes. */
  function Unescape(s: string): string
    decreases |s|
  {
    if |s| == 0 then []
    else if |s| >= |QUOT| && s[..|QUOT|] == QUOT then "\"" + Unescape(s[|QUOT|..])
    else if |s| >= |APOS| && s[..|APOS|] == APOS then "'" + Unescape(s[|APOS|..])
    else [s[0]] + Unescape(s[1..])
  }

  /** The title keeps the full text: for a text without `&`, decoding the
      entities gives it back exactly. */
  lemma {:induction false} TitleRoundTrip(t: string)
    requires '&' !in t
    ensures Unescape(EscapeQuotes(t)) == t
  {
    EscapeQuotesInOnePass(t);
    UnescapeEscapeEach(t);
  }

  lemma {:induction false} UnescapeEscapeEach(t: string)
    requires '&' !in t
    ensures Unescape(EscapeEach(t)) == t
    decreases |t|
  {
    if |t| > 0 {
      UnescapeEscapeEach(t[1..]);
      var e := EscapeEach(t);
      var rest := EscapeEach(t[1..]);
      if t[0] == '"' {
        assert e == QUOT + rest;
        assert e[..|QUOT|] == QUOT && e[|QUOT|..] == rest;
      } else if t[0] == '\'' {
        assert e == APOS + rest;
        assert e[..|QUOT|] != QUOT;
        assert e[..|APOS|] == APOS && e[|APOS|..] == rest;
      } else {
        assert e == [t[0]] + rest;
        assert e[1..] == rest;
        assert e[0] != '&';
      }
      assert t == [t[0]] + t[1..];
    }
  }
}
